=== FILE: README.md ===
# API-key gate, route registry and secret plumbing of a Django App Runner service

This project models, in Dafny, the core of a Django service deployed on AWS App Runner with the CDK:

- **The API-key middleware** (`SimpleApiKeyMiddleware`). It lets a request through when:
  - authentication is disabled by `DISABLE_API_AUTH`;
  - the path is under `/admin/`;
  - the path is one of the core endpoints (`/health`, `/debug`, `/test/async-example`) or below one;
  - the user is already authenticated;
  - the request carries a configured key.

  It answers 500 when no key is configured, and 401 otherwise.
- **The credential chain.** The middleware and the REST-framework authentication class share it. The sources are tried in order:
  1. the `X-API-KEY` header;
  2. `Authorization: ApiKey <key>`;
  3. `Authorization: Basic <base64(user:key)>`;
  4. the `api_key` query parameter.

  The sequential "only while the key is still falsy" code is proved to agree with a reference definition, the first source that holds a non-empty value. The two agree on whether a key was found and, when one was, on the key. They are not equal as values: with only an empty `?api_key=` the chain ends holding "" where the reference holds nothing, and both refuse the request.
- **The authentication class** (`SimpleApiKeyAuthentication`). It consults the same chain plus a fifth source, the `api_key` body field. Its result has three outcomes:
  - anonymous;
  - authenticated as one fixed identity;
  - failed with "No API keys configured on the server" or "Invalid API key".

  It also gives the `ApiKey` challenge scheme.
- **The router singleton.** `Router()` always yields one instance. `route(pattern, methods)` queues a pending entry and returns the view unchanged. The entry carries a method restriction only for a non-empty method list. `register_routes` moves the pending entries, in order, into the URL patterns and clears the pending list, so activating again adds nothing.
- **The secret manager of the CDK stack.** Its parts:
  - value masking;
  - the `key=value` line format (strip, skip blanks and `#` comments, split at the first `=`, last value wins);
  - secret names `<app>_<file stem>` under `os.path.splitext`;
  - skipping files with no pairs;
  - one App Runner environment variable per key, named by the upper-cased key;
  - discovery of non-hidden regular files, without reloading a file already added;
  - the plan of what the push utility pushes.
- **The push CLI.** It reads `APP_NAME` from the app configuration file: the first stripped, non-comment line matching `^APP_NAME=(.+)$` wins. Its dry run reuses the line parser and warns, with 1-based line numbers, about every non-blank, non-comment line without `=`.

Python semantics the code relies on are written out:
- truthiness of `None`, `""` and `{}`;
- `str.strip` with Python's whitespace set;
- `split(' ')[1]` and `split(':', 1)`;
- `startswith`;
- insertion-ordered `dict`;
- `os.path.splitext`.

Side effects are parameters:
- environment variables and settings are `Option` values;
- a file is its list of lines, or `None` when it does not exist;
- a directory is its listing, or `None` when it does not exist;
- base64/UTF-8 decoding is a function `string -> Option<string>`, where `None` means it raised.

Modules and files:

| file | module | contents |
|---|---|---|
| `wrappers.dfy` | `Wrappers` | `Option` |
| `py_str.dfy` | `PyStr` | the Python `str` operations above |
| `dict.dfy` | `Dict` | insertion-ordered dictionary with string keys |
| `credentials.dfy` | `Credentials` | request record, the four header/query sources, the chain and its reference |
| `middleware.dfy` | `Middleware` | `SimpleApiKeyMiddleware` |
| `authentication.dfy` | `Authentication` | `SimpleApiKeyAuthentication` |
| `router.dfy` | `Routing` | `Router` singleton and its two lists |
| `posix_path.dfy` | `PosixPath` | `os.path.splitext` |
| `key_value_file.dfy` | `KeyValueFile` | the secret-file line format |
| `secrets_manager.dfy` | `SecretsManager` | `SecretManager` and `mask_secret_value` |
| `push_secrets.dfy` | `PushSecrets` | `get_app_name_from_appconfig` and the dry run |

## Model

| member | source | states |
|---|---|---|
| Middleware.Init | apps/core/middleware.py:14-22 | The gate keeps the `API_KEYS` setting as read at construction; an absent setting is an empty key list. |
| Middleware.MatchesAny | apps/core/middleware.py:35-44 | A path is exempt exactly when it equals a core exempt path or starts with one followed by '/'. |
| Middleware.Call | apps/core/middleware.py:24-106 | A request passes exactly when auth is disabled, the path is exempt, the user is authenticated, or keys are configured and the first non-empty credential is one of them. 500 "No API keys configured on the server" comes exactly when none of the bypasses apply and no key is configured. Every other refusal is 401 "API key missing or invalid". |
| Middleware.DisabledPassesEverything | apps/core/middleware.py:25-28 | Any non-empty `DISABLE_API_AUTH` lets every request through. |
| Middleware.ExemptPathsNeedNoKey | apps/core/middleware.py:30-44 | Admin and core exempt paths pass with no key configured and no credential. |
| Middleware.ExemptPathExamples | apps/core/middleware.py:35-44 | `/health`, `/health/`, `/debug/routes`, `/test/async-example` and `/admin/login/` are exempt. |
| Middleware.HealthcheckIsNotExempt | apps/core/middleware.py:35-44 | `/healthcheck` is not exempt: a core path only covers itself and what lies below it after a '/'. |
| Middleware.BareAdminIsNotExempt | apps/core/middleware.py:30-32 | `/admin` without its trailing '/' is not under the admin prefix. |
| Middleware.ProtectedIsNotExempt | apps/core/middleware.py:30-44 | An ordinary path such as `/protected/` is gated. |
| Middleware.AsyncExamplesIsNotExempt | apps/core/middleware.py:35-44 | `/test/async-examples` is not exempt although it starts with the exempt `/test/async-example`. |
| Middleware.AuthenticatedPassesBeforeKeyCheck | apps/core/middleware.py:46-65 | An already-authenticated request passes even when no key is configured, because that check comes first. |
| Middleware.NoKeysIsServerError | apps/core/middleware.py:60-65 | With no key configured, every gated request fails closed with 500, even one that carries a key. |
| Middleware.WrongHeaderKeyIsNotRescued | apps/core/middleware.py:70-106 | A non-empty wrong `X-API-KEY` gives 401 even when a later source holds a valid key. |
| Middleware.EmptyKeyNeverAccepted | apps/core/middleware.py:97-106 | With every source empty the request is refused with 401, even if "" is a configured key. |
| Middleware.BasicAuthIgnoresUser | apps/core/middleware.py:80-100 | `Authorization: Basic` whose payload decodes to `user:key` with a configured key passes, whatever the user name. |
| Credentials.ApiKeyToken | apps/core/middleware.py:74-78 | A token exists exactly when an `Authorization` header starts with `ApiKey `. It is then `split(' ')[1]` of the header, so it never contains a space. |
| Credentials.ApiKeyHeaderIgnoresTrailingWords | apps/core/middleware.py:77-78 | `ApiKey <key> <more words>` yields just `<key>`: words after a second space are dropped. |
| Credentials.HeaderQueryCandidate | apps/core/middleware.py:67-95 | The chain as written: its result is nothing or the value of one of the four sources. Its agreement with the reference is HeaderQueryChainIsFirstNonEmpty. |
| Credentials.BasicPassword | apps/core/middleware.py:80-91 | A Basic password comes from a `Basic ` header whose second field decodes to `user:password`, with no ':' in the user name. |
| Credentials.FirstNonEmpty | apps/core/middleware.py:67-95 | Reference precedence: the result is non-empty iff some source is non-empty, and then it is the first such source. |
| Credentials.HeaderQueryChainIsFirstNonEmpty | apps/core/middleware.py:67-95 | The sequential "only if still falsy" chain over the four sources is truthy exactly when the reference is, and then equals it. |
| Credentials.ApiKeyHeaderYieldsKey | apps/core/middleware.py:74-78 | `Authorization: ApiKey <key>` with a space-free key yields exactly that key. |
| Credentials.BasicTokenYieldsPassword | apps/core/middleware.py:80-91 | The converse of BasicPassword's contract: whenever the header starts with `Basic ` and its second space-separated word decodes to `user:key`, the result is `key`, whatever follows that word. |
| Credentials.BasicHeaderYieldsPassword | apps/core/middleware.py:80-91 | A Basic token decoding to `user:key` yields `key`; a ':' inside the key is kept. |
| Credentials.BasicHeaderIgnoresTrailingWords | apps/core/middleware.py:80-91 | `Basic <token> <more words>` decodes only `<token>`: words after a second space are dropped, and a token decoding to `user:key` still yields `key`. |
| Credentials.MalformedBasicYieldsNothing | apps/core/middleware.py:85-91 | A Basic payload that fails to decode, or has no ':', contributes nothing and the chain goes on. |
| Credentials.XApiKeyTakesPrecedence | apps/core/middleware.py:70-95 | A non-empty `X-API-KEY` is the candidate whatever the other sources hold. |
| Authentication.Candidate | apps/core/authentication.py:34-65 | The five-step chain as written: its result is nothing or the value of one of the five sources. |
| Authentication.BodyKey | apps/core/authentication.py:64-65 | The body `api_key` field is read only from parsed request data. BodyKeyIsLastResort states what it decides. |
| Authentication.CandidateIsFirstNonEmpty | apps/core/authentication.py:34-65 | The five-step chain with the body field last agrees with the first non-empty of the five sources. |
| Authentication.Authenticate | apps/core/authentication.py:18-84 | Empty `API_KEYS` fails with "No API keys configured on the server". Otherwise: anonymous iff no source is non-empty; authenticated iff the first non-empty source is a configured key; "Invalid API key" iff it is not one. |
| Authentication.AuthenticateHeader | apps/core/authentication.py:86-87 | The challenge scheme is `ApiKey`, the scheme word of the `Authorization` source. |
| Authentication.NoKeysFailsFirst | apps/core/authentication.py:24-30 | With no keys configured, authentication fails before any credential is looked at. |
| Authentication.SameIdentityForEveryKey | apps/core/authentication.py:67-79 | Every successful authentication attaches the same user, whichever key was used. This holds by construction: one identity stands for the user the source looks up. |
| Authentication.ChallengeAnswerAuthenticates | apps/core/authentication.py:37-79 | Answering the `ApiKey` challenge with a configured, space-free key authenticates. |
| Authentication.BodyKeyIsLastResort | apps/core/authentication.py:63-81 | When the four header/query sources are empty, the body `api_key` alone decides between authenticated and "Invalid API key". |
| Authentication.MalformedBasicFallsThrough | apps/core/authentication.py:46-65 | A malformed Basic payload is swallowed, so the query key decides. |
| Routing.New | apps/core/router.py:16-19 | The first construction creates the instance; every later one returns the existing instance and leaves the state alone. |
| Routing.SingletonAcrossCalls | apps/core/router.py:11-19 | Any number of constructions yields the same instance as the first. |
| Routing.Wrap | apps/core/router.py:21-37 | The handler always bridges the decorated view itself. The method restriction is added around it exactly when a non-empty method list is given. |
| Routing.Route | apps/core/router.py:21-42 | Decorating appends exactly one pending entry (pattern, wrapped view, view name) and returns the original view. |
| Routing.RegisterRoutes | apps/core/router.py:44-48 | Activation appends one URL pattern per pending entry, in order, after the existing ones, and empties the pending list. |
| Routing.GetUrlPatterns | apps/core/router.py:50-51 | The registered list itself. NothingListedBeforeActivation and ActivatedPatterns state what it holds. |
| Routing.NothingListedBeforeActivation | apps/core/router.py:50-51 | Before the first activation, `get_urlpatterns` is empty however many views were declared. |
| Routing.DeclareAllQueuesInOrder | apps/core/router.py:39-41 | Declarations queue up in source order. |
| Routing.SecondActivationIsNoOp | apps/core/router.py:44-48 | A second activation right after the first changes nothing, so no route is listed twice. |
| Routing.ActivatedPatterns | apps/core/router.py:44-51 | Declaring from the initial state and activating once lists exactly the declared patterns, in declaration order. |
| Routing.DeclarationOrderIrrelevant | apps/core/router.py:44-51 | The multiset of registered patterns does not depend on the order in which views were declared. |
| PyStr.Strip | cdk/secrets_manager.py:81 | Neither end of the result of `strip()` is whitespace. That it is a cut of the input is stated by StripFacts. |
| PyStr.StripFacts | cdk/secrets_manager.py:81-82 | `strip()` returns a slice of its input with only whitespace cut off both ends. Together with Strip's own ensures this fixes the result. It gives "" exactly for all-whitespace lines, leaves stripped text alone, and introduces no character. |
| PyStr.Split | apps/core/middleware.py:78 | `split(sep)` gives one part iff `sep` is absent; no part contains `sep`; joining the parts gives the input back. |
| PyStr.SplitJoin | apps/core/middleware.py:78 | Splitting a join of separator-free parts returns the parts. |
| PyStr.SplitFirstPart | apps/core/middleware.py:78 | The first part of `split(sep)` is the text before the first separator. |
| PyStr.SplitOnce | apps/core/middleware.py:87 | `split(':', 1)` unpacks into two parts exactly when ':' occurs. |
| PyStr.SplitOnceParts | apps/core/middleware.py:87 | When the separator occurs, the parts are the text before its first occurrence and everything after it, so the separator may reappear only in the second part. |
| PyStr.SecondFieldAfterWord | apps/core/middleware.py:77-78 | After a space-free scheme word and a space, `split(' ')[1]` is the space-free token that follows. |
| PyStr.Upper | cdk/secrets_manager.py:154 | `upper()` maps each character to its upper-case form and keeps the length. |
| PyStr.UpperIdempotent | cdk/secrets_manager.py:154 | Upper-casing twice is upper-casing once, and no ASCII lower-case letter remains. |
| Dict.Set | cdk/secrets_manager.py:84 | `d[k] = v` makes `k` map to `v` and leaves every other key alone. A new key goes at the end of the order; an existing key keeps its place. |
| PosixPath.RFind | cdk/secrets_manager.py:110 | The result is the last position of the character, or -1 when it is absent. |
| PosixPath.SplitExt | cdk/secrets_manager.py:110 | `splitext`: root plus extension is the path. A non-empty extension starts with '.' and holds no further '.' or '/'. |
| PosixPath.SplitExtKeepsName | cdk/secrets_manager.py:110 | An extension is split off only when the root's last path component keeps a character other than '.'. |
| PosixPath.NoDotNoExtension | cdk/secrets_manager.py:110 | A name without '.' has no extension. |
| PosixPath.LastExtensionSplitOff | cdk/secrets_manager.py:110 | Only the last extension goes: `a.b.c` keeps `a.b`, and `archive.` loses just the '.'. |
| PosixPath.DotFileHasNoExtension | cdk/secrets_manager.py:110 | A dot-file such as `.env` has no extension and keeps its whole name as its stem. |
| KeyValueFile.ClassifyLine | cdk/secrets_manager.py:81-84 | The four-way reading of one line: blank, comment, no '=' or a key/value pair. ClassifyLineMeaning states what each kind means. |
| KeyValueFile.ClassifyLineMeaning | cdk/secrets_manager.py:80-84 | Kinds of line: blank iff all whitespace; comment iff it starts with '#' once stripped; no delimiter iff otherwise '=' is absent; else a pair split at the first '=' into a stripped key with no '=' and a stripped value. |
| KeyValueFile.ParseLines | cdk/secrets_manager.py:80-84 | Reading keeps the dictionary well formed and never drops a starting key. |
| KeyValueFile.StepKeys | cdk/secrets_manager.py:84 | One line appends its key to the key order exactly when it is a pair line with a key not yet present. Re-assigning a present key keeps its place. |
| KeyValueFile.ParseKeysAfter | cdk/secrets_manager.py:80-84 | The parsed dictionary's key order is the order built line by line. |
| KeyValueFile.KeysAfterAppends | cdk/secrets_manager.py:80-84 | The order built line by line is the starting order followed by the new keys in first-appearance order. |
| KeyValueFile.ParseKeyOrder | cdk/secrets_manager.py:80-84 | The parsed keys are the starting keys, in place, followed by each new key at its first pair line: Python's dict insertion order, against the first-appearance reference. This order is the order of the environment variables and of the dry run's key list. |
| KeyValueFile.ParseLookup | cdk/secrets_manager.py:76-84 | A key's value is the one on the last pair line for it; keys the file never mentions keep their default. |
| KeyValueFile.ParseAppend | cdk/secrets_manager.py:80-84 | Reading a file in two parts is reading it whole. |
| KeyValueFile.NoPairsNoChange | cdk/secrets_manager.py:80-84 | A file with no pair line leaves the dictionary unchanged. |
| KeyValueFile.PairRoundTrip | cdk/secrets_manager.py:81-84 | A written `key=value` line reads back as that pair, even when the value contains '='. |
| SecretsManager.MaskSecretValue | cdk/secrets_manager.py:21-33 | Missing or short (at most 2 characters) values mask to `***`. Longer ones become first character, `****`, last character. |
| SecretsManager.MaskHidesMiddle | cdk/secrets_manager.py:21-33 | Two values of the same length with the same ends mask identically: nothing else leaks. |
| SecretsManager.SecretName | cdk/secrets_manager.py:110 | The app name, '_', and the file name without its extension. SecretNameShape states the result for names with and without an extension. |
| SecretsManager.SecretNameShape | cdk/secrets_manager.py:110 | A secret is named `<app>_<file name without its extension>`. |
| SecretsManager.NewManager | cdk/secrets_manager.py:47-60 | A new manager keeps the given app name and starts with well-formed file and secret tables that have no entries. |
| SecretsManager.AddSecretFile | cdk/secrets_manager.py:62-93 | The file's entry is replaced, and nothing else changes. Each key gets the file's last value for it, else the default. |
| SecretsManager.CreateFrom | cdk/secrets_manager.py:104-126 | Every listed file with at least one pair gets a secret under its name. Every secret comes from such a file or existed before. |
| SecretsManager.CreateSecrets | cdk/secrets_manager.py:95-128 | Every non-empty file has a secret named from it; no secret comes from an empty file; the files are untouched. |
| SecretsManager.EmptyFilesCreateNothing | cdk/secrets_manager.py:104-107 | Files without pairs are skipped: with only such files, no secret is created. |
| SecretsManager.KeyVars | cdk/secrets_manager.py:151-157 | One variable per key, in key order, named by the upper-cased key and reading that key of the secret. |
| SecretsManager.EnvFrom | cdk/secrets_manager.py:140-157 | Every variable is the upper-cased name of a key of some file, and reads a created secret named after that file. |
| SecretsManager.EnvironmentVariables | cdk/secrets_manager.py:130-161 | Every environment variable is named by an upper-cased key of some file, and refers to a created secret named after that file. |
| SecretsManager.EnvAfterCreate | cdk/secrets_manager.py:95-161 | After creating the secrets of a fresh manager, there is one variable for every key of every file, in file order then key order. |
| SecretsManager.VisibleFiles | cdk/secrets_manager.py:267-271 | An entry is loaded exactly when it is a regular file whose name does not start with '.'. |
| SecretsManager.VisibleFilesSingle | cdk/secrets_manager.py:267-271 | A single entry is kept, once, exactly when it is a visible regular file. |
| SecretsManager.VisibleFilesAppend | cdk/secrets_manager.py:267-271 | Filtering two parts of a listing and concatenating is filtering the whole. With VisibleFilesSingle this means listing order is kept and each entry appears as often as it is listed. |
| SecretsManager.LoadNew | cdk/secrets_manager.py:275-279 | Files already present are not reloaded; every listed file ends up present. |
| SecretsManager.LoadNewReadsEntries | cdk/secrets_manager.py:275-279 | Every file that loading added was parsed, with no defaults, from a listed entry of that name. |
| SecretsManager.DiscoverAndLoad | cdk/secrets_manager.py:253-281 | A missing directory changes nothing and returns an empty dictionary. Otherwise every visible file is loaded, earlier files keep their values, each new one is parsed from its entry, and all loaded files are returned. |
| SecretsManager.PushPlan | cdk/secrets_manager.py:192-221 | Exactly the visible files with at least one pair are pushed, each under `<app>_<stem>` with its parsed pairs. |
| SecretsManager.PushPlanSingle | cdk/secrets_manager.py:192-221 | A single entry gives one push, as (`<app>_<stem>`, its pairs), exactly when it is a visible regular file with at least one pair, and none otherwise. |
| SecretsManager.PushPlanAppend | cdk/secrets_manager.py:192-221 | Planning two parts of a listing and concatenating is planning the whole. With PushPlanSingle this means pushes follow listing order, one per qualifying entry. |
| PushSecrets.DropFinalNewline | cdk/push_secrets.py:26 | Drops one trailing newline, if there is one, and nothing else. That is where Python's `$` matches last. |
| PushSecrets.MatchAppName | cdk/push_secrets.py:26-28 | A `^APP_NAME=(.+)$` match gives a non-empty, newline-free capture, and the line is `APP_NAME=` plus the capture, possibly followed by one final newline (Python's `$` also matches before a final newline). |
| PushSecrets.MatchAppNameComplete | cdk/push_secrets.py:26-28 | The converse: every line of that shape matches, with that capture. |
| PushSecrets.LineAppName | cdk/push_secrets.py:24-28 | One raw line's contribution: the line is stripped, and blank or comment lines are skipped before the match. CommentsNeverMatch, EmptyAppNameSkipped and AppNameRoundTrip state its behaviour. |
| PushSecrets.AppNameFromLines | cdk/push_secrets.py:22-32 | The first stripped, non-comment line that matches gives the name; there is none iff no line matches. |
| PushSecrets.GetAppNameFromAppConfig | cdk/push_secrets.py:10-32 | A missing configuration file gives no name; otherwise the name comes from the line scan. |
| PushSecrets.CommentsNeverMatch | cdk/push_secrets.py:24-26 | A comment line never names the app, even when it contains `APP_NAME=`. |
| PushSecrets.EmptyAppNameSkipped | cdk/push_secrets.py:26-28 | `APP_NAME=` with nothing after it does not match, and the scan goes on. |
| PushSecrets.AppNameRoundTrip | cdk/push_secrets.py:24-28 | A written `APP_NAME=<name>` line, with a stripped one-line name, reads back as `<name>`. |
| PushSecrets.DryRunParse | cdk/push_secrets.py:108-119 | The dry run builds exactly the pairs the secret manager's parser reads, and its warnings are the warning-line reference. |
| PushSecrets.NoDelimiterLine | cdk/push_secrets.py:113-119 | A line is classified as missing its '=' exactly when, once stripped, it is non-empty, not a comment and has no '='. |
| PushSecrets.WarningLinesMeaning | cdk/push_secrets.py:112-119 | A line number is warned about exactly when that line, once stripped, is non-empty, not a comment and has no '='. |
| PushSecrets.WarningLinesIncrease | cdk/push_secrets.py:112-119 | Warnings carry 1-based line numbers within the file, in strictly increasing order. |
| PushSecrets.DryRunFile | cdk/push_secrets.py:106-130 | One file's report is the reference report: its warnings, its secret name and the keys the secret manager's parser reads. |
| PushSecrets.ReportMeaning | cdk/push_secrets.py:106-130 | A report names the file and its secret `<app>_<stem>`, and warns about exactly the warning lines, in increasing order. |
| PushSecrets.DryRun | cdk/push_secrets.py:93-130 | One report per visible (regular, non-hidden) file, in listing order, each the reference report of that file. |

## Left out

- Logging, `print` output and the log/console text, since they have no effect on results. The dry run's report is kept as data: file, secret name, keys and warning lines.
- File-system effects: creating a missing directory, `open`, `glob` and `listdir` ordering. Contents and listings are inputs, and the listing order is taken as given.
- AWS calls and their failures: `boto3` describe/put/create secret, the STS credential check and the returned ARNs. CDK `Secret` objects, tokens and `secret_value_from_json` are also left out. A created secret is recorded by name with its pairs, and an environment variable by (name, secret, key).
- The CDK construct id of a secret (`<app>Secret<Stem.capitalize()>`) and its description. The model has no construct ids. So it also leaves out the synthesis error CDK raises when two files' stems differ only in letter case (`DB.env` and `db.env` both give `<app>SecretDb`). The model creates both secrets (`<app>_DB` and `<app>_db`) and their variables, where the stack would abort.
- The push CLI's argument parsing, its exit codes and the "required unless found" rule for `--app-name`.
- The Django user lookup or creation on successful authentication. Whichever user it finds does not depend on the key, so one fixed identity stands for it.
- Async-to-sync bridging, CSRF exemption and the runtime behaviour of the wrapped views. A handler is a record of what wraps which view.
- Django `path()` objects, which are records of pattern, handler and name.
- Base64 and UTF-8 decoding, which is a parameter: it is library code.
- Body `api_key` values that are not strings, such as JSON numbers or lists. Body and query fields are modelled as strings.
- Authentication.Authenticate: exceptions from reading the body are not modelled. Testing for `request.data` makes the REST framework parse the body. A malformed or unsupported body then raises a parse or media-type error out of `authenticate`. A body that parses to a JSON array or scalar has no `.get`, which raises too. The model treats a request without parsed fields (`data == None`) as having no body key, so it answers Anonymous or decides on the other sources in all these cases.
- PyStr.Strip: the function's own contract says only that neither end of the result is whitespace. The rest of `strip()`'s meaning, that the result is the input with only whitespace cut off both ends, is stated by the lemma StripFacts. It stays out of the function's contract so that each of the many uses of Strip stays cheap to verify.
- PyStr.Upper: it upper-cases ASCII letters only; Python's Unicode case mapping, including length-changing cases such as 'ß', is not modelled.
- GetAppNameFromAppConfig: an exception raised while reading the file part-way is not modelled; the file is either absent (`None`) or its full list of lines.
- AddSecretFile: the source stores the caller's default dictionary itself and mutates it in place, so the caller sees the file's pairs too. The model returns a new dictionary and does not model that aliasing.
- Secret-name collisions between files with the same stem (`db.env`, `db.txt`) are not singled out. The later file overwrites the earlier secret by name, as `Dict.Set` does, and CDK's duplicate-construct-id error is not modelled.
- The module-level `router = Router()` instance, and the app configuration's `ready()` hook that calls `register_routes` once at start-up (apps/core/apps.py:19). Both belong to start-up wiring. The URL configuration and the views read the routes only through `get_urlpatterns`.
- Routing: class attributes versus instance attributes are not distinguished. Because the router is a singleton, its two lists are modelled as one state.

=== FILE: authentication.dfy ===
/**
 * The REST-framework authentication class: the same credential chain as the
 * middleware plus a fifth source, the `api_key` body field, with a
 * three-way result (anonymous, authenticated, failed).
 */
module Authentication {
  import opened Wrappers
  import opened PyStr
  import opened Credentials

  /**
   * The user attached on success. The source looks up the first superuser,
   * else the first user, else creates an admin; whichever it is, it does not
   * depend on the key, so the model keeps one fixed identity.
   */
  datatype Identity = AdminIdentity

  datatype AuthResult =
    | Anonymous                        // `None`: no credential, let other classes decide
    | Authenticated(user: Identity)    // `(user, None)`
    | Failed(detail: string)           // `raise AuthenticationFailed(detail)`

  const NoKeysDetail := "No API keys configured on the server"
  const InvalidKeyDetail := "Invalid API key"

  /** Source 5: the `api_key` body field, when the request has parsed data. */
  function BodyKey(req: Request): Option<string> {
    match req.data
    case Some(fields) => Lookup(fields, ApiKeyField)
    case None => None
  }

  /** The five sources in the order they are consulted. */
  function AllSources(req: Request, decode: Decoder): seq<Option<string>> {
    HeaderQuerySources(req, decode) + [BodyKey(req)]
  }

  /** `request_key` after all five steps: the body is read only while the key is falsy. */
  function Candidate(req: Request, decode: Decoder): (r: Option<string>)
    ensures r.None? || r in AllSources(req, decode)
  {
    var k4 := HeaderQueryCandidate(req, decode);
    if !Truthy(k4) && req.data.Some? then BodyKey(req) else k4
  }

  /** Five-source version of the chain/reference agreement. */
  lemma CandidateIsFirstNonEmpty(req: Request, decode: Decoder)
    ensures Truthy(Candidate(req, decode)) <==> Truthy(FirstNonEmpty(AllSources(req, decode)))
    ensures Truthy(Candidate(req, decode)) ==> Candidate(req, decode) == FirstNonEmpty(AllSources(req, decode))
  {
    HeaderQueryChainIsFirstNonEmpty(req, decode);
    var s := AllSources(req, decode);
    assert s[1..] == [s[1], s[2], s[3], s[4]];
    assert s[2..] == [s[2], s[3], s[4]];
    assert s[3..] == [s[3], s[4]];
    assert s[4..] == [s[4]];
    assert s[5..] == [];
  }

  /**
   * `SimpleApiKeyAuthentication.authenticate`; `setting` is `API_KEYS` as read
   * on this call (absent reads as an empty list).
   */
  function Authenticate(setting: Option<seq<string>>, req: Request, decode: Decoder): (r: AuthResult)
    ensures |setting.GetOr([])| == 0 <==> r == Failed(NoKeysDetail)
    ensures |setting.GetOr([])| > 0 ==>
      var key := FirstNonEmpty(AllSources(req, decode));
      && (r == Anonymous <==> !Truthy(key))
      && (r.Authenticated? <==> Truthy(key) && key.value in setting.GetOr([]))
      && (r == Failed(InvalidKeyDetail) <==> Truthy(key) && key.value !in setting.GetOr([]))
    ensures r.Authenticated? ==> r.user == AdminIdentity
  {
    CandidateIsFirstNonEmpty(req, decode);
    var apiKeys := setting.GetOr([]);
    if |apiKeys| == 0 then Failed(NoKeysDetail)
    else
      var key := Candidate(req, decode);
      if Truthy(key) then
        if key.value in apiKeys then Authenticated(AdminIdentity) else Failed(InvalidKeyDetail)
      else Anonymous
  }

  /**
   * `authenticate_header`: the scheme offered in the 401 challenge. It is the
   * scheme word of the `Authorization: ApiKey <key>` source.
   */
  function AuthenticateHeader(req: Request): (scheme: string)
    ensures scheme == ApiKeyScheme
  {
    "ApiKey"
  }

  // ---------------------------------------------------------------------------
  // Properties
  // ---------------------------------------------------------------------------

  /** An empty key list fails before any credential is looked at, even with none sent. */
  lemma NoKeysFailsFirst(setting: Option<seq<string>>, req: Request, decode: Decoder)
    requires setting.None? || setting == Some([])
    ensures Authenticate(setting, req, decode) == Failed(NoKeysDetail)
  {
  }

  /**
   * Authentication never tells valid keys apart: any two valid keys give the
   * same result. This holds by construction, since the model has a single
   * identity standing for the user the source looks up.
   */
  lemma SameIdentityForEveryKey(keys: seq<string>, req1: Request, req2: Request, decode: Decoder)
    requires Authenticate(Some(keys), req1, decode).Authenticated?
    requires Authenticate(Some(keys), req2, decode).Authenticated?
    ensures Authenticate(Some(keys), req1, decode) == Authenticate(Some(keys), req2, decode)
  {
  }

  /** A request that answers the challenge with a configured key is authenticated. */
  lemma ChallengeAnswerAuthenticates(keys: seq<string>, req: Request, decode: Decoder, key: string)
    requires key in keys && key != "" && ' ' !in key
    requires XApiKeyMeta !in req.meta
    requires AuthorizationMeta in req.meta
    requires req.meta[AuthorizationMeta] == AuthenticateHeader(req) + " " + key
    ensures Authenticate(Some(keys), req, decode) == Authenticated(AdminIdentity)
  {
    ApiKeyHeaderYieldsKey(req, key);
  }

  /** A body key is only consulted when every earlier source is empty. */
  lemma BodyKeyIsLastResort(keys: seq<string>, req: Request, decode: Decoder)
    requires |keys| > 0
    requires forall i :: 0 <= i < 4 ==> !Truthy(HeaderQuerySources(req, decode)[i])
    requires Truthy(BodyKey(req))
    ensures Authenticate(Some(keys), req, decode) ==
      if BodyKey(req).value in keys then Authenticated(AdminIdentity) else Failed(InvalidKeyDetail)
  {
    var s := AllSources(req, decode);
    assert forall i :: 0 <= i < 4 ==> s[i] == HeaderQuerySources(req, decode)[i];
    assert s[4] == BodyKey(req);
  }

  /** A malformed Basic payload is skipped: the query key still decides. */
  lemma MalformedBasicFallsThrough(keys: seq<string>, req: Request, decode: Decoder)
    requires |keys| > 0 && XApiKeyMeta !in req.meta
    requires AuthorizationMeta in req.meta
    requires var auth := req.meta[AuthorizationMeta];
      StartsWith(auth, BasicScheme + " ") && ' ' in auth &&
      (decode(SecondField(auth)).None? || ':' !in decode(SecondField(auth)).value)
    requires Truthy(QueryKey(req))
    ensures Authenticate(Some(keys), req, decode) ==
      if QueryKey(req).value in keys then Authenticated(AdminIdentity) else Failed(InvalidKeyDetail)
  {
    MalformedBasicYieldsNothing(req, decode);
    assert !StartsWith(req.meta[AuthorizationMeta], ApiKeyScheme + " ") by {
      assert req.meta[AuthorizationMeta][0] != ApiKeyScheme[0];
    }
  }
}

=== FILE: credentials.dfy ===
/**
 * The request as the API-key layer sees it, and the credential extraction
 * chain shared by the request middleware and the REST-framework
 * authentication class: X-API-KEY header, `Authorization: ApiKey <key>`,
 * `Authorization: Basic <base64(user:key)>`, `api_key` query parameter.
 */
module Credentials {
  import opened Wrappers
  import opened PyStr

  /** Header names as they appear in the WSGI/ASGI `META` dictionary. */
  const XApiKeyMeta := "HTTP_X_API_KEY"
  const AuthorizationMeta := "HTTP_AUTHORIZATION"
  /** Name of the query-string (and body) field carrying a key. */
  const ApiKeyField := "api_key"
  const ApiKeyScheme := "ApiKey"
  const BasicScheme := "Basic"

  /**
   * An incoming request: its path, whether an earlier layer already attached
   * an authenticated user, the `META` headers, the query parameters (the last
   * value of a repeated parameter) and, when the request was parsed by the
   * REST framework, its body fields.
   */
  datatype Request = Request(
    path: string,
    userAuthenticated: bool,
    meta: map<string, string>,
    query: map<string, string>,
    data: Option<map<string, string>>)

  /**
   * Base64 decoding followed by UTF-8 decoding: `None` where either raises.
   * It is library code, so the model takes it as a parameter.
   */
  type Decoder = string -> Option<string>

  /** Python truthiness of an optional string: present and non-empty. */
  predicate Truthy(k: Option<string>) {
    k.Some? && k.value != ""
  }

  function Lookup(m: map<string, string>, name: string): Option<string> {
    if name in m then Some(m[name]) else None
  }

  // ---------------------------------------------------------------------------
  // The individual sources
  // ---------------------------------------------------------------------------

  /** Source 1: the X-API-KEY header, whatever its value. */
  function XApiKeyHeader(req: Request): Option<string> {
    Lookup(req.meta, XApiKeyMeta)
  }

  /**
   * Source 2: an `Authorization` header starting with `ApiKey ` yields
   * `split(' ')[1]` of the header: the text between its first and second
   * space (or the end).
   */
  function ApiKeyToken(req: Request): (r: Option<string>)
    ensures r.Some? <==> AuthorizationMeta in req.meta && StartsWith(req.meta[AuthorizationMeta], ApiKeyScheme + " ")
    ensures r.Some? ==> ' ' in req.meta[AuthorizationMeta] && r.value == SecondField(req.meta[AuthorizationMeta])
    ensures r.Some? ==> ' ' !in r.value
  {
    match Lookup(req.meta, AuthorizationMeta)
    case Some(auth) =>
      if StartsWith(auth, ApiKeyScheme + " ") then
        assert auth[|ApiKeyScheme|] == ' ';
        Some(SecondField(auth))
      else None
    case None => None
  }

  /**
   * Source 3: `Authorization: Basic <payload>` yields the text after the first
   * ':' of the decoded payload; a payload that does not decode or has no ':'
   * yields nothing (the source catches the exception and goes on).
   */
  function BasicPassword(req: Request, decode: Decoder): (r: Option<string>)
    ensures r.Some? ==>
      && AuthorizationMeta in req.meta
      && StartsWith(req.meta[AuthorizationMeta], BasicScheme + " ")
      && ' ' in req.meta[AuthorizationMeta]
      && exists user :: ':' !in user
           && decode(SecondField(req.meta[AuthorizationMeta])) == Some(user + ":" + r.value)
  {
    match Lookup(req.meta, AuthorizationMeta)
    case Some(auth) =>
      if StartsWith(auth, BasicScheme + " ") then
        assert auth[|BasicScheme|] == ' ';
        match decode(SecondField(auth))
        case Some(decoded) =>
          if ':' in decoded then
            SplitOnceParts(decoded, ':');
            Some(SplitOnce(decoded, ':').value.1)
          else None
        case None => None
      else None
    case None => None
  }

  /** Source 4: the `api_key` query parameter. */
  function QueryKey(req: Request): Option<string> {
    Lookup(req.query, ApiKeyField)
  }

  /** The four header/query sources in the order they are consulted. */
  function HeaderQuerySources(req: Request, decode: Decoder): seq<Option<string>> {
    [XApiKeyHeader(req), ApiKeyToken(req), BasicPassword(req, decode), QueryKey(req)]
  }

  /** Reference definition of precedence: the first source holding a non-empty value. */
  function FirstNonEmpty(sources: seq<Option<string>>): (r: Option<string>)
    ensures r.None? || Truthy(r)
    ensures Truthy(r) <==> exists i :: 0 <= i < |sources| && Truthy(sources[i])
    ensures Truthy(r) ==>
      exists i :: 0 <= i < |sources| && sources[i] == r && (forall j :: 0 <= j < i ==> !Truthy(sources[j]))
  {
    if |sources| == 0 then None
    else if Truthy(sources[0]) then sources[0]
    else
      var r := FirstNonEmpty(sources[1..]);
      assert forall i :: 1 <= i < |sources| ==> sources[i] == sources[1..][i - 1];
      r
  }

  // ---------------------------------------------------------------------------
  // The chain as written: each later source only while the key is still falsy
  // ---------------------------------------------------------------------------

  /**
   * `request_key` after steps 1-4 of the middleware and of the authentication
   * class. A source that yields nothing leaves the previous value in place;
   * step 4 assigns `GET.get('api_key')` unconditionally once the key is falsy.
   */
  function HeaderQueryCandidate(req: Request, decode: Decoder): (r: Option<string>)
    ensures r.None? || r in HeaderQuerySources(req, decode)
  {
    var k1 := XApiKeyHeader(req);
    var k2 := if !Truthy(k1) && ApiKeyToken(req).Some? then ApiKeyToken(req) else k1;
    var k3 := if !Truthy(k2) && BasicPassword(req, decode).Some? then BasicPassword(req, decode) else k2;
    var k4 := if !Truthy(k3) then QueryKey(req) else k3;
    k4
  }

  /**
   * The sequential chain agrees with the reference precedence: it is truthy
   * exactly when some source is, and then holds the first non-empty source.
   */
  lemma HeaderQueryChainIsFirstNonEmpty(req: Request, decode: Decoder)
    ensures Truthy(HeaderQueryCandidate(req, decode)) <==> Truthy(FirstNonEmpty(HeaderQuerySources(req, decode)))
    ensures Truthy(HeaderQueryCandidate(req, decode)) ==>
      HeaderQueryCandidate(req, decode) == FirstNonEmpty(HeaderQuerySources(req, decode))
  {
    var s := HeaderQuerySources(req, decode);
    assert s[1..] == [s[1], s[2], s[3]];
    assert s[2..] == [s[2], s[3]];
    assert s[3..] == [s[3]];
    assert s[4..] == [];
  }

  // ---------------------------------------------------------------------------
  // How a client supplies a key through each source
  // ---------------------------------------------------------------------------

  /** `Authorization: ApiKey <key>` with a space-free key yields that key. */
  lemma ApiKeyHeaderYieldsKey(req: Request, key: string)
    requires ' ' !in key
    requires AuthorizationMeta in req.meta && req.meta[AuthorizationMeta] == ApiKeyScheme + " " + key
    ensures ApiKeyToken(req) == Some(key)
  {
    SecondFieldAfterWord(ApiKeyScheme, key);
  }

  /**
   * Only the word after `ApiKey ` is the key: whatever follows a further
   * space is ignored.
   */
  lemma ApiKeyHeaderIgnoresTrailingWords(req: Request, key: string, rest: string)
    requires ' ' !in key
    requires AuthorizationMeta in req.meta && req.meta[AuthorizationMeta] == ApiKeyScheme + " " + key + " " + rest
    ensures ApiKeyToken(req) == Some(key)
  {
    var tail := key + " " + rest;
    assert req.meta[AuthorizationMeta] == ApiKeyScheme + " " + tail;
    SecondFieldAfterWord(ApiKeyScheme, tail);
    SplitFirstPart(key, ' ', rest);
  }

  /**
   * Once the word after `Basic ` decodes to `user:key`, the Basic source
   * yields `key`, whatever the user name (which may not contain ':').
   */
  lemma BasicTokenYieldsPassword(req: Request, decode: Decoder, user: string, key: string)
    requires ':' !in user
    requires AuthorizationMeta in req.meta && StartsWith(req.meta[AuthorizationMeta], BasicScheme + " ")
    requires ' ' in req.meta[AuthorizationMeta]
    requires decode(SecondField(req.meta[AuthorizationMeta])) == Some(user + ":" + key)
    ensures BasicPassword(req, decode) == Some(key)
  {
    var d := user + ":" + key;
    IndexOfAfterWord(user, ':', key);
    assert d[..|user|] == user && d[|user| + 1..] == key;
  }

  /**
   * `Authorization: Basic <token>` where the token decodes to `user:key`
   * yields `key`, whatever the user name (which may not contain ':').
   */
  lemma BasicHeaderYieldsPassword(req: Request, decode: Decoder, token: string, user: string, key: string)
    requires ' ' !in token && ':' !in user
    requires AuthorizationMeta in req.meta && req.meta[AuthorizationMeta] == BasicScheme + " " + token
    requires decode(token) == Some(user + ":" + key)
    ensures BasicPassword(req, decode) == Some(key)
  {
    SecondFieldAfterWord(BasicScheme, token);
    BasicTokenYieldsPassword(req, decode, user, key);
  }

  /**
   * Only the word after `Basic ` is decoded: whatever follows a further space
   * is ignored, and a token decoding to `user:key` still yields `key`.
   */
  lemma BasicHeaderIgnoresTrailingWords(req: Request, decode: Decoder, token: string, rest: string, user: string, key: string)
    requires ' ' !in token && ':' !in user
    requires AuthorizationMeta in req.meta && req.meta[AuthorizationMeta] == BasicScheme + " " + token + " " + rest
    requires decode(token) == Some(user + ":" + key)
    ensures BasicPassword(req, decode) == Some(key)
  {
    var tail := token + " " + rest;
    assert req.meta[AuthorizationMeta] == BasicScheme + " " + tail;
    SecondFieldAfterWord(BasicScheme, tail);
    SplitFirstPart(token, ' ', rest);
    BasicTokenYieldsPassword(req, decode, user, key);
  }

  /** A Basic payload that does not decode, or decodes without ':', yields nothing. */
  lemma MalformedBasicYieldsNothing(req: Request, decode: Decoder)
    requires AuthorizationMeta in req.meta
    requires var auth := req.meta[AuthorizationMeta];
      StartsWith(auth, BasicScheme + " ") && ' ' in auth &&
      (decode(SecondField(auth)).None? || ':' !in decode(SecondField(auth)).value)
    ensures BasicPassword(req, decode).None?
  {
  }

  /** X-API-KEY, when non-empty, is the candidate, whatever the other sources say. */
  lemma XApiKeyTakesPrecedence(req: Request, decode: Decoder)
    requires Truthy(XApiKeyHeader(req))
    ensures HeaderQueryCandidate(req, decode) == XApiKeyHeader(req)
  {
  }
}

=== FILE: dict.dfy ===
/**
 * Python's `dict` (3.7 and later) with string keys: a finite map that remembers the order in which
 * keys were first inserted. Re-assigning an existing key changes its value
 * but not its position.
 */
module Dict {
  import opened Wrappers

  datatype Dict<V> = Dict(keys: seq<string>, items: map<string, V>)

  /** Keys are listed once each, and exactly the keys of the map are listed. */
  ghost predicate Valid<V>(d: Dict<V>) {
    && (forall i, j :: 0 <= i < j < |d.keys| ==> d.keys[i] != d.keys[j])
    && (forall k :: k in d.items <==> k in d.keys)
  }

  function Empty<V>(): (d: Dict<V>)
    ensures Valid(d)
    ensures |d.keys| == 0
  {
    Dict([], map[])
  }

  /** `d.get(k)`. */
  function Get<V>(d: Dict<V>, k: string): Option<V> {
    if k in d.items then Some(d.items[k]) else None
  }

  /** Python truthiness of a dict: `not d` holds exactly when it has no key. */
  predicate IsEmpty<V>(d: Dict<V>) {
    |d.keys| == 0
  }

  /** `d[k] = v`. */
  function Set<V>(d: Dict<V>, k: string, v: V): (r: Dict<V>)
    requires Valid(d)
    ensures Valid(r)
    ensures Get(r, k) == Some(v)
    ensures forall k' :: k' != k ==> Get(r, k') == Get(d, k')
    ensures d.keys <= r.keys
    ensures k in d.keys ==> r.keys == d.keys
    ensures k !in d.keys ==> r.keys == d.keys + [k]
  {
    if k in d.items then Dict(d.keys, d.items[k := v])
    else Dict(d.keys + [k], d.items[k := v])
  }
}

=== FILE: key_value_file.dfy ===
/**
 * The `key=value` secret-file format shared by the CDK secret manager and
 * the push CLI: each line is stripped; blank lines, `#` comments and lines
 * without '=' contribute nothing; otherwise the line splits at its first
 * '=' and key and value are each stripped. Later lines override earlier ones.
 */
module KeyValueFile {
  import opened Wrappers
  import opened PyStr
  import opened Dict

  /** What one line of a secret file is. */
  datatype Line =
    | Blank
    | Comment
    | NoDelimiter                         // non-blank, not a comment, no '='
    | Pair(key: string, value: string)

  function ClassifyLine(raw: string): Line {
    var line := Strip(raw);
    if line == "" then Blank
    else if line[0] == '#' then Comment
    else
      match SplitOnce(line, '=')
      case None => NoDelimiter
      case Some(kv) => Pair(Strip(kv.0), Strip(kv.1))
  }

  /**
   * The four kinds of line: blank means all whitespace; a comment starts
   * with '#' once stripped; otherwise the line either lacks '=' or splits at
   * its first '=' into a stripped key (without '=') and a stripped value.
   */
  lemma ClassifyLineMeaning(raw: string)
    ensures ClassifyLine(raw).Blank? <==> AllSpace(raw)
    ensures ClassifyLine(raw).Comment? <==> !AllSpace(raw) && Strip(raw)[0] == '#'
    ensures ClassifyLine(raw).NoDelimiter? <==> !AllSpace(raw) && Strip(raw)[0] != '#' && '=' !in Strip(raw)
    ensures ClassifyLine(raw).Pair? ==>
      var l := ClassifyLine(raw);
      Stripped(l.key) && Stripped(l.value) && '=' !in l.key
    ensures ClassifyLine(raw).Pair? ==>
      var kv := SplitOnce(Strip(raw), '=').value;
      && Strip(raw) == kv.0 + "=" + kv.1 && '=' !in kv.0
      && ClassifyLine(raw) == Pair(Strip(kv.0), Strip(kv.1))
  {
    var line := Strip(raw);
    if line != "" && line[0] != '#' && '=' in line {
      var kv := SplitOnce(line, '=').value;
      SplitOnceParts(line, '=');
      StripFacts(kv.0);
    }
    StripFacts(raw);
  }

  /** One line's effect on the dictionary being built. */
  function Step(acc: Dict<string>, raw: string): (d: Dict<string>)
    requires Valid(acc)
    ensures Valid(d)
  {
    match ClassifyLine(raw)
    case Pair(k, v) => Set(acc, k, v)
    case _ => acc
  }

  /** The reading loop: `values[key.strip()] = value.strip()` for each pair line, in order. */
  function ParseLines(acc: Dict<string>, lines: seq<string>): (d: Dict<string>)
    requires Valid(acc)
    ensures Valid(d)
    ensures acc.keys <= d.keys
    decreases |lines|
  {
    if |lines| == 0 then acc else ParseLines(Step(acc, lines[0]), lines[1..])
  }

  /** Reference reading of a file: the value of the LAST pair line with key `k`. */
  function LastValue(lines: seq<string>, k: string): Option<string>
    decreases |lines|
  {
    if |lines| == 0 then None
    else
      var later := LastValue(lines[1..], k);
      if later.Some? then later
      else
        match ClassifyLine(lines[0])
        case Pair(k', v) => if k' == k then Some(v) else None
        case _ => None
  }

  /** The key of a pair line, if it is one. */
  function PairKey(raw: string): Option<string> {
    match ClassifyLine(raw)
    case Pair(k, _) => Some(k)
    case _ => None
  }

  /** The key a line adds to the order: its key (by `key`), when not yet in `seen`. */
  function NewKeyOf(key: string -> Option<string>, seen: seq<string>, raw: string): seq<string> {
    if key(raw).Some? && key(raw).value !in seen then [key(raw).value] else []
  }

  /**
   * Reference key order: the keys of the lines, by `key`, in order of first
   * appearance, leaving out those already in `seen`.
   */
  function NewKeys(key: string -> Option<string>, seen: seq<string>, lines: seq<string>): seq<string>
    decreases |lines|
  {
    if |lines| == 0 then []
    else
      var n := NewKeyOf(key, seen, lines[0]);
      n + NewKeys(key, seen + n, lines[1..])
  }

  /** How a pair is written so that it reads back. */
  function RenderPair(key: string, value: string): string {
    key + "=" + value
  }

  // ---------------------------------------------------------------------------
  // Properties
  // ---------------------------------------------------------------------------

  /** The key order after reading `lines` from the order `keys`, line by line. */
  function KeysAfter(key: string -> Option<string>, keys: seq<string>, lines: seq<string>): seq<string>
    decreases |lines|
  {
    if |lines| == 0 then keys else KeysAfter(key, keys + NewKeyOf(key, keys, lines[0]), lines[1..])
  }

  /** One line appends its key to the order exactly when it is a pair line with a new key. */
  lemma StepKeys(acc: Dict<string>, raw: string)
    requires Valid(acc)
    ensures Step(acc, raw).keys == acc.keys + NewKeyOf(PairKey, acc.keys, raw)
  {
  }

  /** Reading tracks the line-by-line key order. */
  lemma {:induction false} ParseKeysAfter(acc: Dict<string>, lines: seq<string>)
    requires Valid(acc)
    ensures ParseLines(acc, lines).keys == KeysAfter(PairKey, acc.keys, lines)
    decreases |lines|
  {
    if |lines| > 0 {
      StepKeys(acc, lines[0]);
      ParseKeysAfter(Step(acc, lines[0]), lines[1..]);
    }
  }

  /** The line-by-line order is the starting order followed by the reference new keys. */
  lemma {:induction false} KeysAfterAppends(key: string -> Option<string>, keys: seq<string>, lines: seq<string>)
    ensures KeysAfter(key, keys, lines) == keys + NewKeys(key, keys, lines)
    decreases |lines|
  {
    if |lines| > 0 {
      var n := NewKeyOf(key, keys, lines[0]);
      var tail := NewKeys(key, keys + n, lines[1..]);
      KeysAfterAppends(key, keys + n, lines[1..]);
      assert keys + n + tail == keys + (n + tail);
    } else {
      assert keys + [] == keys;
    }
  }

  /**
   * Reading keeps the keys already present in place and appends each new key
   * at its first pair line: Python's dict insertion order.
   */
  lemma ParseKeyOrder(acc: Dict<string>, lines: seq<string>)
    requires Valid(acc)
    ensures ParseLines(acc, lines).keys == acc.keys + NewKeys(PairKey, acc.keys, lines)
  {
    ParseKeysAfter(acc, lines);
    KeysAfterAppends(PairKey, acc.keys, lines);
  }

  /**
   * A file's value for a key is the one on its last line with that key; keys
   * the file never mentions keep the starting (default) value.
   */
  lemma {:induction false} ParseLookup(acc: Dict<string>, lines: seq<string>, k: string)
    requires Valid(acc)
    ensures Get(ParseLines(acc, lines), k) ==
      if LastValue(lines, k).Some? then LastValue(lines, k) else Get(acc, k)
    decreases |lines|
  {
    if |lines| > 0 {
      ParseLookup(Step(acc, lines[0]), lines[1..], k);
    }
  }

  /** Feeding a file in two parts is feeding it whole (the loop can stop anywhere). */
  lemma {:induction false} ParseAppend(acc: Dict<string>, lines: seq<string>, more: seq<string>)
    requires Valid(acc)
    ensures ParseLines(acc, lines + more) == ParseLines(ParseLines(acc, lines), more)
    decreases |lines|
  {
    if |lines| == 0 {
      assert lines + more == more;
    } else {
      assert (lines + more)[1..] == lines[1..] + more;
      ParseAppend(Step(acc, lines[0]), lines[1..], more);
    }
  }

  /** A file without any pair line leaves the starting dictionary as it was. */
  lemma {:induction false} NoPairsNoChange(acc: Dict<string>, lines: seq<string>)
    requires Valid(acc)
    requires forall i :: 0 <= i < |lines| ==> !ClassifyLine(lines[i]).Pair?
    ensures ParseLines(acc, lines) == acc
    decreases |lines|
  {
    if |lines| > 0 {
      NoPairsNoChange(acc, lines[1..]);
    }
  }

  /**
   * A stripped key without '=' or a leading '#' and a stripped value read
   * back unchanged; the value may itself contain '=' because only the first
   * '=' splits.
   */
  lemma PairRoundTrip(key: string, value: string)
    requires Stripped(key) && Stripped(value) && '=' !in key
    requires key == "" || key[0] != '#'
    ensures ClassifyLine(RenderPair(key, value)) == Pair(key, value)
  {
    var line := RenderPair(key, value);
    assert Strip(line) == line by {
      assert Stripped(line);
      StripFacts(line);
    }
    assert line[0] != '#';
    assert SplitOnce(line, '=') == Some((key, value)) by {
      IndexOfAfterWord(key, '=', value);
      assert line[..|key|] == key && line[|key| + 1..] == value;
    }
    StripFacts(key);
    StripFacts(value);
    ClassifyPairLine(line, key, value);
  }

  /** A stripped, non-comment line that splits into stripped parts is that pair. */
  lemma ClassifyPairLine(line: string, key: string, value: string)
    requires Strip(line) == line && line != "" && line[0] != '#'
    requires SplitOnce(line, '=') == Some((key, value))
    requires Strip(key) == key && Strip(value) == value
    ensures ClassifyLine(line) == Pair(key, value)
  {
  }
}

=== FILE: middleware.dfy ===
/**
 * The API-key gate that runs in front of every view: an ordered list of
 * exemptions, then a fail-closed check on an empty key list, then the
 * credential chain and a membership test.
 */
module Middleware {
  import opened Wrappers
  import opened PyStr
  import opened Credentials

  /** What the middleware does with a request. */
  datatype Outcome =
    | PassThrough                              // hand the request to the view
    | JsonError(status: int, error: string)    // answer `{"error": error}` itself

  const NoKeysError := "No API keys configured on the server"
  const BadKeyError := "API key missing or invalid"

  const AdminPrefix := "/admin/"
  /** Paths exempt on their own and for everything below them. */
  const CoreExemptPaths := ["/health", "/debug", "/test/async-example"]

  /** The middleware object: the `API_KEYS` setting as read once at start-up. */
  datatype Gate = Gate(apiKeys: seq<string>)

  /** Construction: `getattr(settings, 'API_KEYS', [])`. */
  function Init(setting: Option<seq<string>>): (g: Gate)
    ensures setting.Some? ==> g.apiKeys == setting.value
    ensures setting.None? ==> g.apiKeys == []
  {
    Gate(setting.GetOr([]))
  }

  /** `path == e or path.startswith(e + '/')` for some `e` in `paths`, tried in order. */
  function MatchesAny(path: string, paths: seq<string>): (b: bool)
    ensures b <==> exists i :: 0 <= i < |paths| && (path == paths[i] || StartsWith(path, paths[i] + "/"))
  {
    if |paths| == 0 then false
    else if path == paths[0] || StartsWith(path, paths[0] + "/") then true
    else
      var b := MatchesAny(path, paths[1..]);
      assert forall i :: 1 <= i < |paths| ==> paths[i] == paths[1..][i - 1];
      b
  }

  /** The path-based exemptions: the admin site and the core endpoints. */
  predicate IsExempt(path: string) {
    StartsWith(path, AdminPrefix) || MatchesAny(path, CoreExemptPaths)
  }

  /** Whether the credential sources settle on a key that is configured. */
  predicate Accepted(g: Gate, req: Request, decode: Decoder) {
    var key := HeaderQueryCandidate(req, decode);
    Truthy(key) && key.value in g.apiKeys
  }

  /**
   * `SimpleApiKeyMiddleware.__call__`. `disableEnv` is the value of the
   * `DISABLE_API_AUTH` environment variable, if set.
   */
  function Call(g: Gate, disableEnv: Option<string>, req: Request, decode: Decoder): (r: Outcome)
    ensures r.PassThrough? <==>
      || Truthy(disableEnv)
      || IsExempt(req.path)
      || req.userAuthenticated
      || (|g.apiKeys| > 0 && Truthy(FirstNonEmpty(HeaderQuerySources(req, decode)))
          && FirstNonEmpty(HeaderQuerySources(req, decode)).value in g.apiKeys)
    ensures r == JsonError(500, NoKeysError) <==>
      !Truthy(disableEnv) && !IsExempt(req.path) && !req.userAuthenticated && |g.apiKeys| == 0
    ensures r.JsonError? ==> r == JsonError(500, NoKeysError) || r == JsonError(401, BadKeyError)
  {
    HeaderQueryChainIsFirstNonEmpty(req, decode);
    if Truthy(disableEnv) then PassThrough
    else if StartsWith(req.path, AdminPrefix) then PassThrough
    else if MatchesAny(req.path, CoreExemptPaths) then PassThrough
    else if req.userAuthenticated then PassThrough
    else if |g.apiKeys| == 0 then JsonError(500, NoKeysError)
    else if Accepted(g, req, decode) then PassThrough
    else JsonError(401, BadKeyError)
  }

  // ---------------------------------------------------------------------------
  // Properties
  // ---------------------------------------------------------------------------

  /** With DISABLE_API_AUTH set to anything non-empty, every request goes through. */
  lemma DisabledPassesEverything(g: Gate, disableEnv: Option<string>, req: Request, decode: Decoder)
    requires Truthy(disableEnv)
    ensures Call(g, disableEnv, req, decode) == PassThrough
  {
  }

  /** Exempt paths go through even with no key configured and no credential sent. */
  lemma ExemptPathsNeedNoKey(disableEnv: Option<string>, req: Request, decode: Decoder)
    requires IsExempt(req.path)
    ensures Call(Gate([]), disableEnv, req, decode) == PassThrough
  {
  }

  /** The exempt paths themselves and paths below them. */
  lemma ExemptPathExamples()
    ensures IsExempt("/health") && IsExempt("/health/") && IsExempt("/debug/routes")
    ensures IsExempt("/test/async-example") && IsExempt("/admin/login/")
  {
    assert MatchesAny("/health", CoreExemptPaths);
    assert StartsWith("/health/", CoreExemptPaths[0] + "/");
    assert StartsWith("/debug/routes", CoreExemptPaths[1] + "/");
    assert MatchesAny("/test/async-example", CoreExemptPaths) by {
      assert "/test/async-example" == CoreExemptPaths[2];
    }
    assert StartsWith("/admin/login/", AdminPrefix);
  }

  /** Near misses are not exempt: a longer name is not below "/health". */
  lemma HealthcheckIsNotExempt()
    ensures !IsExempt("/healthcheck")
  {
    var p := "/healthcheck";
    assert !StartsWith(p, AdminPrefix) by { assert p[1] != AdminPrefix[1]; }
    assert !StartsWith(p, CoreExemptPaths[0] + "/") by { assert p[7] != '/'; }
    assert !StartsWith(p, CoreExemptPaths[1] + "/") by { assert p[1] != 'd'; }
    assert !StartsWith(p, CoreExemptPaths[2] + "/") by { assert p[1] != 't'; }
  }

  /** The admin prefix needs its trailing '/': "/admin" itself is gated. */
  lemma BareAdminIsNotExempt()
    ensures !IsExempt("/admin")
  {
    var p := "/admin";
    assert !StartsWith(p, AdminPrefix) by { assert |p| < |AdminPrefix|; }
    assert !StartsWith(p, CoreExemptPaths[0] + "/") by { assert p[1] != 'h'; }
    assert !StartsWith(p, CoreExemptPaths[1] + "/") by { assert p[1] != 'd'; }
    assert !StartsWith(p, CoreExemptPaths[2] + "/") by { assert p[1] != 't'; }
  }

  /** An ordinary API path is gated. */
  lemma ProtectedIsNotExempt()
    ensures !IsExempt("/protected/")
  {
    var p := "/protected/";
    assert !StartsWith(p, AdminPrefix) by { assert p[1] != 'a'; }
    assert !StartsWith(p, CoreExemptPaths[0] + "/") by { assert p[1] != 'h'; }
    assert !StartsWith(p, CoreExemptPaths[1] + "/") by { assert p[1] != 'd'; }
    assert !StartsWith(p, CoreExemptPaths[2] + "/") by { assert p[1] != 't'; }
  }

  /** A longer name is not below "/test/async-example". */
  lemma AsyncExamplesIsNotExempt()
    ensures !IsExempt("/test/async-examples")
  {
    var p := "/test/async-examples";
    assert !StartsWith(p, AdminPrefix) by { assert p[1] != 'a'; }
    assert !StartsWith(p, CoreExemptPaths[0] + "/") by { assert p[1] != 'h'; }
    assert !StartsWith(p, CoreExemptPaths[1] + "/") by { assert p[1] != 'd'; }
    assert !StartsWith(p, CoreExemptPaths[2] + "/") by { assert p[19] != '/'; }
  }

  /** An already-authenticated request goes through; this is decided before the empty-key check. */
  lemma AuthenticatedPassesBeforeKeyCheck(disableEnv: Option<string>, req: Request, decode: Decoder)
    requires req.userAuthenticated
    ensures Call(Gate([]), disableEnv, req, decode) == PassThrough
  {
  }

  /** Fail closed: with no key configured, a gated request gets 500 even if it carries a key. */
  lemma NoKeysIsServerError(disableEnv: Option<string>, req: Request, decode: Decoder)
    requires !Truthy(disableEnv) && !IsExempt(req.path) && !req.userAuthenticated
    ensures Call(Gate([]), disableEnv, req, decode) == JsonError(500, NoKeysError)
  {
  }

  /** A non-empty but wrong X-API-KEY is not rescued by a valid key in a later source. */
  lemma WrongHeaderKeyIsNotRescued(g: Gate, disableEnv: Option<string>, req: Request, decode: Decoder)
    requires !Truthy(disableEnv) && !IsExempt(req.path) && !req.userAuthenticated && |g.apiKeys| > 0
    requires Truthy(XApiKeyHeader(req)) && XApiKeyHeader(req).value !in g.apiKeys
    ensures Call(g, disableEnv, req, decode) == JsonError(401, BadKeyError)
  {
    XApiKeyTakesPrecedence(req, decode);
  }

  /** An empty candidate is refused even when "" is a configured key. */
  lemma EmptyKeyNeverAccepted(g: Gate, disableEnv: Option<string>, req: Request, decode: Decoder)
    requires !Truthy(disableEnv) && !IsExempt(req.path) && !req.userAuthenticated && |g.apiKeys| > 0
    requires "" in g.apiKeys
    requires forall i :: 0 <= i < 4 ==> !Truthy(HeaderQuerySources(req, decode)[i])
    ensures Call(g, disableEnv, req, decode) == JsonError(401, BadKeyError)
  {
  }

  /** A Basic credential authenticates with its password, whatever the user name. */
  lemma BasicAuthIgnoresUser(g: Gate, disableEnv: Option<string>, req: Request, decode: Decoder,
                             token: string, user: string, key: string)
    requires !Truthy(disableEnv) && !IsExempt(req.path) && !req.userAuthenticated
    requires XApiKeyMeta !in req.meta
    requires ' ' !in token && ':' !in user && key in g.apiKeys && key != ""
    requires AuthorizationMeta in req.meta && req.meta[AuthorizationMeta] == BasicScheme + " " + token
    requires decode(token) == Some(user + ":" + key)
    ensures Call(g, disableEnv, req, decode) == PassThrough
  {
    BasicHeaderYieldsPassword(req, decode, token, user, key);
    assert !StartsWith(req.meta[AuthorizationMeta], ApiKeyScheme + " ") by {
      assert req.meta[AuthorizationMeta][0] != ApiKeyScheme[0];
    }
  }
}

=== FILE: posix_path.dfy ===
/** `os.path.splitext` on POSIX paths ('/' separator, '.' extension separator). */
module PosixPath {

  /** Python `s.rfind(c)`: the last position of `c`, or -1. */
  function RFind(s: string, c: char): (i: int)
    ensures -1 <= i < |s|
    ensures i >= 0 ==> s[i] == c
    ensures forall j :: i < j < |s| ==> s[j] != c
    decreases |s|
  {
    if |s| == 0 then -1
    else if s[|s| - 1] == c then |s| - 1
    else RFind(s[..|s| - 1], c)
  }

  /**
   * `os.path.splitext(p)`: splits at the last '.' of the final path
   * component, unless every character before it in that component is a '.'
   * (so ".env" and "..x" have no extension).
   */
  function SplitExt(p: string): (r: (string, string))
    ensures r.0 + r.1 == p
    ensures r.1 != "" ==> r.1[0] == '.'
    ensures forall j :: 0 < j < |r.1| ==> r.1[j] != '.' && r.1[j] != '/'
  {
    var sep := RFind(p, '/');
    var dot := RFind(p, '.');
    if dot > sep && exists j :: sep + 1 <= j < dot && p[j] != '.' then
      (p[..dot], p[dot..])
    else
      (p, "")
  }

  /**
   * `root` keeps a character other than '.' in its final path component.
   */
  predicate HasNameChar(root: string) {
    exists j :: 0 <= j < |root| && root[j] != '.' && NoSlashAfter(root, j)
  }

  /** No '/' follows position `j` of `s`. */
  predicate NoSlashAfter(s: string, j: nat) {
    forall k :: j < k < |s| ==> s[k] != '/'
  }

  /**
   * An extension is only split off a final path component that keeps a
   * character other than '.' in front of it.
   */
  lemma SplitExtKeepsName(p: string)
    ensures SplitExt(p).1 != "" ==> HasNameChar(SplitExt(p).0)
  {
    var sep := RFind(p, '/');
    var dot := RFind(p, '.');
    if dot > sep && exists j :: sep + 1 <= j < dot && p[j] != '.' {
      var j :| sep + 1 <= j < dot && p[j] != '.';
      var root := p[..dot];
      assert SplitExt(p).0 == root;
      assert root[j] != '.';
      assert NoSlashAfter(root, j);
    }
  }

  /** The part `splitext` keeps: the path without its last extension. */
  function Stem(p: string): string {
    SplitExt(p).0
  }

  /** A name with no '.' has no extension. */
  lemma NoDotNoExtension(p: string)
    requires '.' !in p
    ensures SplitExt(p) == (p, "")
  {
  }

  /**
   * Only the last extension goes: after a slash-free stem holding some
   * character other than '.', a '.' and a dot-free, slash-free (possibly
   * empty) extension are split off.
   */
  lemma LastExtensionSplitOff(stem: string, ext: string)
    requires '/' !in stem && exists j :: 0 <= j < |stem| && stem[j] != '.'
    requires '.' !in ext && '/' !in ext
    ensures SplitExt(stem + "." + ext) == (stem, "." + ext)
  {
    var p := stem + "." + ext;
    assert p[|stem|] == '.';
    assert forall k :: |stem| < k < |p| ==> p[k] == ext[k - |stem| - 1];
    assert forall k :: 0 <= k < |stem| ==> p[k] == stem[k];
    var dot := RFind(p, '.');
    assert dot == |stem|;
    assert RFind(p, '/') == -1;
    var j :| 0 <= j < |stem| && stem[j] != '.';
    assert p[j] != '.';
    assert p[..|stem|] == stem && p[|stem|..] == "." + ext;
  }

  /** A hidden-style name such as ".env" has no extension: its only '.' leads. */
  lemma DotFileHasNoExtension(name: string)
    requires '.' !in name && '/' !in name
    ensures SplitExt("." + name) == ("." + name, "")
  {
    var p := "." + name;
    assert forall k :: 0 < k < |p| ==> p[k] == name[k - 1] && name[k - 1] in name;
    assert p[0] == '.';
    assert RFind(p, '.') == 0;
    assert RFind(p, '/') == -1;
  }
}

=== FILE: push_secrets.dfy ===
/**
 * The push CLI's pure parts: reading APP_NAME from the app configuration
 * file, and the dry run that parses each secret file and warns about every
 * line without '='.
 */
module PushSecrets {
  import opened Wrappers
  import opened PyStr
  import opened Dict
  import opened KeyValueFile
  import opened SecretsManager
  import opened Seqs

  const AppNamePrefix := "APP_NAME="

  /**
   * `s` without one trailing newline, if it has one: the text before the
   * position where Python's `$` matches last.
   */
  function DropFinalNewline(s: string): (r: string)
    ensures s == r || s == r + "\n"
    ensures |s| > 0 && s[|s| - 1] == '\n' ==> s == r + "\n"
  {
    if |s| > 0 && s[|s| - 1] == '\n' then s[..|s| - 1] else s
  }

  /**
   * `re.match(r'^APP_NAME=(.+)$', line)`: after the prefix, `.+` takes one or
   * more characters other than a newline, and `$` matches at the end or just
   * before a final newline, so the capture is the rest of the line less one
   * trailing newline.
   */
  function MatchAppName(line: string): (r: Option<string>)
    ensures r.Some? ==>
      && (line == AppNamePrefix + r.value || line == AppNamePrefix + r.value + "\n")
      && r.value != "" && '\n' !in r.value
  {
    if StartsWith(line, AppNamePrefix) then
      var rest := line[|AppNamePrefix|..];
      var name := DropFinalNewline(rest);
      assert line == AppNamePrefix + rest;
      if name != "" && '\n' !in name then Some(name) else None
    else None
  }

  /**
   * The converse: a line that is the prefix followed by a non-empty,
   * newline-free name, and possibly one final newline, matches with that name.
   */
  lemma MatchAppNameComplete(line: string, name: string)
    requires name != "" && '\n' !in name
    requires line == AppNamePrefix + name || line == AppNamePrefix + name + "\n"
    ensures MatchAppName(line) == Some(name)
  {
    assert StartsWith(line, AppNamePrefix);
    var rest := line[|AppNamePrefix|..];
    if line == AppNamePrefix + name {
      assert rest == name;
      assert rest[|rest| - 1] in name;
    } else {
      assert rest == name + "\n";
    }
  }

  /** What one raw line of the configuration file says about APP_NAME. */
  function LineAppName(raw: string): Option<string> {
    var line := Strip(raw);
    if line != "" && line[0] != '#' then MatchAppName(line) else None
  }

  /** No line before position `i` names the app. */
  predicate NoNameBefore(lines: seq<string>, i: int)
    requires i <= |lines|
  {
    forall j :: 0 <= j < i ==> LineAppName(lines[j]).None?
  }

  /** The scan: the first line that names the app wins. */
  function AppNameFromLines(lines: seq<string>): (r: Option<string>)
    ensures r.None? <==> NoNameBefore(lines, |lines|)
    ensures r.Some? ==> exists i :: 0 <= i < |lines| && LineAppName(lines[i]) == r && NoNameBefore(lines, i)
    decreases |lines|
  {
    if |lines| == 0 then None
    else if LineAppName(lines[0]).Some? then LineAppName(lines[0])
    else
      var r := AppNameFromLines(lines[1..]);
      assert forall i :: 0 <= i < |lines| - 1 ==> lines[1..][i] == lines[i + 1];
      assert forall i :: 0 <= i < |lines| ==> (NoNameBefore(lines[1..], i) <==> NoNameBefore(lines, i + 1));
      r
  }

  /** `get_app_name_from_appconfig`; `file` is `None` when APPCONFIG.env does not exist. */
  function GetAppNameFromAppConfig(file: Option<seq<string>>): (r: Option<string>)
    ensures file.None? ==> r.None?
    ensures file.Some? ==> r == AppNameFromLines(file.value)
  {
    match file
    case None => None
    case Some(lines) => AppNameFromLines(lines)
  }

  /**
   * The 1-based numbers of the lines the dry run warns about: once stripped,
   * the line is not empty, is not a comment and holds no '='.
   */
  ghost predicate IsWarningLine(lines: seq<string>, n: int) {
    && 1 <= n <= |lines|
    && var l := Strip(lines[n - 1]);
       l != "" && l[0] != '#' && '=' !in l
  }

  /** A line has no delimiter exactly when, stripped, it is non-empty, not a comment and has no '='. */
  lemma NoDelimiterLine(raw: string)
    ensures ClassifyLine(raw).NoDelimiter? <==>
      Strip(raw) != "" && Strip(raw)[0] != '#' && '=' !in Strip(raw)
  {
  }

  /** One line's effect on the warnings: line number `n` is added when the line has no '='. */
  function WarnStep(warnings: seq<nat>, raw: string, n: nat): seq<nat> {
    if ClassifyLine(raw).NoDelimiter? then warnings + [n] else warnings
  }

  /** Reference: the warning line numbers among the first `i` lines, in line order. */
  function WarningLines(lines: seq<string>, i: nat): seq<nat>
    requires i <= |lines|
  {
    if i == 0 then [] else WarnStep(WarningLines(lines, i - 1), lines[i - 1], i)
  }

  /** The warnings list holds exactly the warning lines among the first `i`. */
  lemma {:induction false} WarningLinesMeaning(lines: seq<string>, i: nat)
    requires i <= |lines|
    ensures forall n :: n in WarningLines(lines, i) <==> 1 <= n <= i && IsWarningLine(lines, n)
  {
    if i > 0 {
      WarningLinesMeaning(lines, i - 1);
      var w := WarningLines(lines, i - 1);
      var last := ClassifyLine(lines[i - 1]).NoDelimiter?;
      assert WarningLines(lines, i) == w + (if last then [i] else []);
      forall n
        ensures n in WarningLines(lines, i) <==> 1 <= n <= i && IsWarningLine(lines, n)
      {
        assert n in WarningLines(lines, i) <==> n in w || (last && n == i);
        NoDelimiterLine(lines[i - 1]);
        assert IsWarningLine(lines, i) <==> last;
      }
    }
  }

  /** The warning line numbers are at most `i` and strictly increasing. */
  lemma {:induction false} WarningLinesIncrease(lines: seq<string>, i: nat)
    requires i <= |lines|
    ensures forall a :: 0 <= a < |WarningLines(lines, i)| ==> WarningLines(lines, i)[a] <= i
    ensures forall a, b :: 0 <= a < b < |WarningLines(lines, i)| ==> WarningLines(lines, i)[a] < WarningLines(lines, i)[b]
  {
    if i > 0 {
      WarningLinesIncrease(lines, i - 1);
    }
  }

  /**
   * The dry-run reading loop: the same pairs as the secret manager's parser,
   * plus one warning per non-blank, non-comment line without '=', carrying
   * its 1-based line number, in increasing order.
   */
  method DryRunParse(lines: seq<string>) returns (values: Dict<string>, warnings: seq<nat>)
    ensures values == ParseLines(Empty(), lines)
    ensures warnings == WarningLines(lines, |lines|)
  {
    values := Empty();
    warnings := [];
    var i := 0;
    while i < |lines|
      invariant 0 <= i <= |lines|
      invariant values == ParseLines(Empty(), lines[..i])
      invariant warnings == WarningLines(lines, i)
    {
      ParseSnoc(lines, i);
      values := Step(values, lines[i]);
      warnings := WarnStep(warnings, lines[i], i + 1);
      i := i + 1;
    }
    assert lines[..i] == lines;
  }

  /** One more line of the loop is one more `Step` of the parser. */
  lemma ParseSnoc(lines: seq<string>, i: nat)
    requires i < |lines|
    ensures ParseLines(Empty(), lines[..i + 1]) == Step(ParseLines(Empty(), lines[..i]), lines[i])
  {
    ParseAppend(Empty(), lines[..i], [lines[i]]);
    assert lines[..i + 1] == lines[..i] + [lines[i]];
  }

  /** What the dry run reports for one file. */
  datatype FileReport = FileReport(
    filename: string,
    warnings: seq<nat>,
    secretName: string,
    keys: seq<string>)      // empty: "contains no valid key-value pairs"

  /** Reference: what the dry run should say about file `e`. */
  function Report(appName: string, e: DirEntry): FileReport {
    FileReport(e.name, WarningLines(e.lines, |e.lines|), SecretName(appName, e.name), ParseLines(Empty(), e.lines).keys)
  }

  /** The dry run for one visible file. */
  method DryRunFile(appName: string, e: DirEntry) returns (report: FileReport)
    ensures report == Report(appName, e)
  {
    var values, warnings := DryRunParse(e.lines);
    report := FileReport(e.name, warnings, SecretName(appName, e.name), values.keys);
  }

  /** The dry run over a directory listing: one report per visible file, in order. */
  method DryRun(appName: string, entries: seq<DirEntry>) returns (reports: seq<FileReport>)
    ensures |reports| == |VisibleFiles(entries)|
    ensures forall i :: 0 <= i < |reports| ==> reports[i] == Report(appName, VisibleFiles(entries)[i])
  {
    var files := VisibleFiles(entries);
    var report := e => Report(appName, e);
    reports := [];
    var i := 0;
    while i < |files|
      invariant 0 <= i <= |files|
      invariant reports == Map(report, files[..i])
    {
      var r := DryRunFile(appName, files[i]);
      MapSnoc(report, files, i);
      reports := reports + [r];
      i := i + 1;
    }
    assert files[..i] == files;
  }

  // ---------------------------------------------------------------------------
  // Properties
  // ---------------------------------------------------------------------------

  /**
   * A file's dry-run report: it names the file and its secret
   * `<app>_<stem>`, and warns about exactly the warning lines, in increasing
   * order.
   */
  lemma ReportMeaning(appName: string, e: DirEntry)
    ensures Report(appName, e).filename == e.name
    ensures Report(appName, e).secretName == SecretName(appName, e.name)
    ensures forall n :: n in Report(appName, e).warnings <==> IsWarningLine(e.lines, n)
    ensures forall a, b :: 0 <= a < b < |Report(appName, e).warnings| ==>
      Report(appName, e).warnings[a] < Report(appName, e).warnings[b]
  {
    WarningLinesMeaning(e.lines, |e.lines|);
    WarningLinesIncrease(e.lines, |e.lines|);
  }

  /** Comment lines never name the app, even when they contain `APP_NAME=`. */
  lemma CommentsNeverMatch(raw: string)
    requires Strip(raw) != "" && Strip(raw)[0] == '#'
    ensures LineAppName(raw).None?
  {
  }

  /** `APP_NAME=` with nothing after it does not match, so the scan goes on. */
  lemma EmptyAppNameSkipped(raw: string, rest: seq<string>)
    requires Strip(raw) == AppNamePrefix
    ensures AppNameFromLines([raw] + rest) == AppNameFromLines(rest)
  {
    assert ([raw] + rest)[1..] == rest;
  }

  /** A written `APP_NAME=<name>` line reads back as `<name>`. */
  lemma AppNameRoundTrip(name: string)
    requires name != "" && '\n' !in name && Stripped(name)
    ensures LineAppName(AppNamePrefix + name) == Some(name)
  {
    var line := AppNamePrefix + name;
    assert line[0] == 'A';
    assert Stripped(line);
    StripFacts(line);
    assert line[|AppNamePrefix|..] == name;
  }
}

=== FILE: py_str.dfy ===
/**
 * The handful of Python `str` operations the modelled code relies on:
 * `isspace`, `strip`, `startswith`, `split(sep)`, `split(sep, 1)` and an
 * ASCII-only `upper`. Strings are `seq<char>`.
 */
module PyStr {
  import opened Wrappers

  /** The characters for which Python's `str.isspace()` holds. */
  predicate IsSpace(c: char) {
    || c == ' '
    || ('\t' <= c <= '\r')
    || ('\U{1c}' <= c <= '\U{1f}')
    || c == '\U{85}' || c == '\U{a0}' || c == '\U{1680}'
    || ('\U{2000}' <= c <= '\U{200a}')
    || c == '\U{2028}' || c == '\U{2029}' || c == '\U{202f}'
    || c == '\U{205f}' || c == '\U{3000}'
  }

  /** Every character of `s` is whitespace (vacuously true of ""). */
  predicate AllSpace(s: string) {
    forall i :: 0 <= i < |s| ==> IsSpace(s[i])
  }

  /** Neither end of `s` is whitespace: what `strip()` guarantees. */
  predicate Stripped(s: string) {
    |s| == 0 || (!IsSpace(s[0]) && !IsSpace(s[|s| - 1]))
  }

  /** Python `s.startswith(prefix)`. */
  predicate StartsWith(s: string, prefix: string) {
    prefix <= s
  }

  /** `lstrip()`: drops the longest all-whitespace prefix. */
  function TrimLeft(s: string): (r: string)
    ensures |r| <= |s|
    ensures |r| == 0 || !IsSpace(r[0])
    decreases |s|
  {
    if |s| > 0 && IsSpace(s[0]) then TrimLeft(s[1..]) else s
  }

  /** `rstrip()`: drops the longest all-whitespace suffix. */
  function TrimRight(s: string): (r: string)
    ensures r <= s
    ensures |r| == 0 || !IsSpace(r[|r| - 1])
    decreases |s|
  {
    if |s| > 0 && IsSpace(s[|s| - 1]) then TrimRight(s[..|s| - 1]) else s
  }

  /**
   * Python `s.strip()` with no argument: `s` with its leading and trailing
   * whitespace cut off (`StripFacts` states that it is such a cut).
   */
  function Strip(s: string): (r: string)
    ensures Stripped(r)
  {
    TrimRight(TrimLeft(s))
  }

  /** `lstrip()` removes a prefix, and only whitespace. */
  lemma {:induction false} TrimLeftRemovesSpace(s: string)
    ensures TrimLeft(s) == s[|s| - |TrimLeft(s)|..]
    ensures AllSpace(s[..|s| - |TrimLeft(s)|])
    decreases |s|
  {
    if |s| > 0 && IsSpace(s[0]) {
      var r := TrimLeft(s[1..]);
      TrimLeftRemovesSpace(s[1..]);
      assert s[..|s| - |r|] == [s[0]] + s[1..][..|s| - 1 - |r|];
    }
  }

  /** `rstrip()` removes a suffix, and only whitespace. */
  lemma {:induction false} TrimRightRemovesSpace(s: string)
    ensures AllSpace(s[|TrimRight(s)|..])
    decreases |s|
  {
    if |s| > 0 && IsSpace(s[|s| - 1]) {
      var r := TrimRight(s[..|s| - 1]);
      TrimRightRemovesSpace(s[..|s| - 1]);
      assert s[|r|..] == s[..|s| - 1][|r|..] + [s[|s| - 1]];
    }
  }

  /**
   * `strip()` cuts only whitespace off the two ends of `s`; together with
   * `Stripped(Strip(s))` this fixes the result. It yields "" exactly for
   * all-whitespace strings, leaves an already-stripped string alone, and
   * cannot introduce a character.
   */
  lemma StripFacts(s: string)
    ensures exists i, j :: 0 <= i <= j <= |s| && Strip(s) == s[i..j] && AllSpace(s[..i]) && AllSpace(s[j..])
    ensures |Strip(s)| <= |s|
    ensures Strip(s) == "" <==> AllSpace(s)
    ensures Stripped(s) ==> Strip(s) == s
    ensures forall c :: c in Strip(s) ==> c in s
  {
    var l := TrimLeft(s);
    var r := TrimRight(l);
    TrimLeftRemovesSpace(s);
    TrimRightRemovesSpace(l);
    assert s == s[..|s| - |l|] + l;
    var i := |s| - |l|;
    assert r == s[i..i + |r|];
    assert s[i + |r|..] == l[|r|..];
    if r == "" {
      assert AllSpace(l[|r|..]);
    }
    if Stripped(s) && |s| > 0 {
      assert TrimLeft(s) == s;
    }
    forall c | c in r
      ensures c in s
    {
      var i :| 0 <= i < |r| && r[i] == c;
      assert l[i] == c;
      assert s[|s| - |l| + i] == c;
    }
  }

  /** Position of the first occurrence of `c` in `s` (Python `s.index(c)`). */
  function IndexOf(s: string, c: char): (i: nat)
    requires c in s
    ensures i < |s| && s[i] == c && c !in s[..i]
  {
    if s[0] == c then 0
    else
      var j := IndexOf(s[1..], c);
      assert s[..j + 1] == [s[0]] + s[1..][..j];
      j + 1
  }

  /** The inverse of `Split`: the parts glued back together with `sep`. */
  function Join(parts: seq<string>, sep: char): string
    requires |parts| >= 1
    decreases |parts|
  {
    if |parts| == 1 then parts[0] else parts[0] + [sep] + Join(parts[1..], sep)
  }

  /** Python `s.split(sep)` for a one-character separator: every occurrence splits. */
  function Split(s: string, sep: char): (parts: seq<string>)
    ensures |parts| >= 1
    ensures |parts| == 1 <==> sep !in s
    ensures forall i :: 0 <= i < |parts| ==> sep !in parts[i]
    ensures Join(parts, sep) == s
    decreases |s|
  {
    if sep !in s then [s]
    else
      var i := IndexOf(s, sep);
      var rest := Split(s[i + 1..], sep);
      var parts := [s[..i]] + rest;
      assert parts[1..] == rest;
      assert s == s[..i] + [sep] + s[i + 1..];
      parts
  }

  /** Python `s.split(sep, 1)` unpacked into two names: `None` where Python raises. */
  function SplitOnce(s: string, sep: char): (r: Option<(string, string)>)
    ensures r.None? <==> sep !in s
  {
    if sep !in s then None
    else
      var i := IndexOf(s, sep);
      assert s == s[..i] + [sep] + s[i + 1..];
      Some((s[..i], s[i + 1..]))
  }

  /** Python `s.split(' ')[1]`: the text between the first and the second space. */
  function SecondField(s: string): (r: string)
    requires ' ' in s
    ensures ' ' !in r
  {
    Split(s, ' ')[1]
  }

  /** ASCII upper-casing of one character. */
  function UpperChar(c: char): char {
    if 'a' <= c <= 'z' then (c as int - 'a' as int + 'A' as int) as char else c
  }

  /** `s.upper()` restricted to ASCII letters. */
  function Upper(s: string): (r: string)
    ensures |r| == |s|
    ensures forall i :: 0 <= i < |s| ==> r[i] == UpperChar(s[i])
  {
    seq(|s|, i requires 0 <= i < |s| => UpperChar(s[i]))
  }

  // ---------------------------------------------------------------------------
  // Properties
  // ---------------------------------------------------------------------------

  /** In `word + [c] + rest` with `c` absent from `word`, the first `c` is the one after `word`. */
  lemma IndexOfAfterWord(word: string, c: char, rest: string)
    requires c !in word
    ensures IndexOf(word + [c] + rest, c) == |word|
  {
    var s := word + [c] + rest;
    assert s[|word|] == c;
    var i := IndexOf(s, c);
    assert s[..|word|] == word;
  }

  /** The first part of `split(sep)` is the text before the first `sep`. */
  lemma SplitFirstPart(word: string, sep: char, rest: string)
    requires sep !in word
    ensures Split(word + [sep] + rest, sep)[0] == word
  {
    var s := word + [sep] + rest;
    IndexOfAfterWord(word, sep, rest);
    assert s[..|word|] == word;
  }

  /** Splitting a joined list of separator-free parts gives the parts back. */
  lemma {:induction false} SplitJoin(parts: seq<string>, sep: char)
    requires |parts| >= 1
    requires forall i :: 0 <= i < |parts| ==> sep !in parts[i]
    ensures Split(Join(parts, sep), sep) == parts
    decreases |parts|
  {
    if |parts| == 1 {
      assert Join(parts, sep) == parts[0];
    } else {
      var p0 := parts[0];
      var tail := Join(parts[1..], sep);
      var s := Join(parts, sep);
      assert s == p0 + [sep] + tail;
      IndexOfAfterWord(p0, sep, tail);
      assert s[..|p0|] == p0;
      assert s[|p0| + 1..] == tail;
      SplitJoin(parts[1..], sep);
      assert Split(s, sep) == [p0] + Split(tail, sep);
    }
  }

  /**
   * After a first word ending in its first space, `split(' ')[1]` is the
   * longest space-free prefix of the remainder.
   */
  lemma SecondFieldAfterWord(word: string, rest: string)
    requires ' ' !in word
    ensures SecondField(word + " " + rest) == Split(rest, ' ')[0]
    ensures ' ' !in rest ==> SecondField(word + " " + rest) == rest
  {
    var s := word + " " + rest;
    IndexOfAfterWord(word, ' ', rest);
    assert s[|word| + 1..] == rest;
  }

  /** `split(sep, 1)` cuts at the first `sep`: the parts and the separator give the input back. */
  lemma SplitOnceParts(s: string, sep: char)
    requires sep in s
    ensures s == SplitOnce(s, sep).value.0 + [sep] + SplitOnce(s, sep).value.1
    ensures sep !in SplitOnce(s, sep).value.0
  {
    var i := IndexOf(s, sep);
    assert s == s[..i] + [sep] + s[i + 1..];
  }

  /** ASCII upper-casing is idempotent and leaves no ASCII lower-case letter. */
  lemma UpperIdempotent(s: string)
    ensures Upper(Upper(s)) == Upper(s)
    ensures forall i :: 0 <= i < |s| ==> !('a' <= Upper(s)[i] <= 'z')
  {
  }
}

=== FILE: router.dfy ===
/**
 * The route-registration singleton as a two-list state machine: views
 * declare themselves into a pending list at import time, and one activation
 * step moves them, in order, into the URL-pattern list.
 */
module Routing {
  import opened Wrappers

  /** A view function; only its `__name__` is visible to the router. */
  datatype View = View(name: string, id: nat)

  /**
   * The callable the router registers: the view bridged from async to sync
   * (and CSRF-exempted), optionally wrapped in an HTTP-method restriction.
   */
  datatype Handler =
    | Bridged(view: View)
    | RestrictedTo(methods: seq<string>, inner: Handler)

  /** A pending entry `(url_pattern, wrapped_view, name)`. */
  datatype PendingRoute = PendingRoute(pattern: string, handler: Handler, name: string)

  /** A registered `path(url_pattern, view, name=name)`. */
  datatype UrlPattern = UrlPattern(pattern: string, handler: Handler, name: string)

  datatype Router = Router(pending: seq<PendingRoute>, routes: seq<UrlPattern>)

  /** The process-wide class state: the singleton, once created, and its lists. */
  datatype Process = Process(instance: Option<nat>, nextId: nat, router: Router)

  /** Both lists start empty when the module is imported. */
  const Initial := Process(None, 0, Router([], []))

  /** `Router()`: the first call creates the instance, every later call returns it. */
  function New(p: Process): (r: (Process, nat))
    ensures r.0.instance == Some(r.1)
    ensures r.0.router == p.router
    ensures p.instance.Some? ==> r == (p, p.instance.value)
  {
    match p.instance
    case Some(id) => (p, id)
    case None => (Process(Some(p.nextId), p.nextId + 1, p.router), p.nextId)
  }

  /** The wrapper `route` builds: the method restriction only for a non-empty list. */
  function Wrap(view: View, methods: Option<seq<string>>): (h: Handler)
    ensures h.Bridged? <==> methods.None? || methods.value == []
    ensures h.Bridged? ==> h == Bridged(view)
    ensures h.RestrictedTo? ==> h == RestrictedTo(methods.value, Bridged(view))
  {
    match methods
    case Some(ms) => if |ms| > 0 then RestrictedTo(ms, Bridged(view)) else Bridged(view)
    case None => Bridged(view)
  }

  /**
   * `router.route(pattern, methods)(view)`: records a pending entry and hands
   * back the view itself, so the module-level name is the undecorated view.
   */
  function Route(r: Router, pattern: string, methods: Option<seq<string>>, view: View): (res: (Router, View))
    ensures res.1 == view
    ensures res.0.routes == r.routes
    ensures |res.0.pending| == |r.pending| + 1
    ensures res.0.pending[..|r.pending|] == r.pending
    ensures res.0.pending[|r.pending|] == PendingRoute(pattern, Wrap(view, methods), view.name)
  {
    (Router(r.pending + [PendingRoute(pattern, Wrap(view, methods), view.name)], r.routes), view)
  }

  function ToUrlPattern(e: PendingRoute): UrlPattern {
    UrlPattern(e.pattern, e.handler, e.name)
  }

  /** `register_routes`: appends one URL pattern per pending entry, then clears pending. */
  function RegisterRoutes(r: Router): (r': Router)
    ensures r'.pending == []
    ensures |r'.routes| == |r.routes| + |r.pending|
    ensures r'.routes[..|r.routes|] == r.routes
    ensures forall i :: 0 <= i < |r.pending| ==>
      r'.routes[|r.routes| + i] == UrlPattern(r.pending[i].pattern, r.pending[i].handler, r.pending[i].name)
  {
    Router([], r.routes + Materialize(r.pending))
  }

  /** One URL pattern per pending entry, in order. */
  function Materialize(entries: seq<PendingRoute>): (ps: seq<UrlPattern>)
    ensures |ps| == |entries|
    ensures forall i :: 0 <= i < |entries| ==> ps[i] == ToUrlPattern(entries[i])
  {
    seq(|entries|, i requires 0 <= i < |entries| => ToUrlPattern(entries[i]))
  }

  /** `get_urlpatterns`. */
  function GetUrlPatterns(r: Router): seq<UrlPattern> {
    r.routes
  }

  /** A declaration as it appears at a view definition: `@router.route(pattern, methods=...)`. */
  datatype Declaration = Declaration(pattern: string, methods: Option<seq<string>>, view: View)

  /** Importing a module of views: its declarations applied in source order. */
  function DeclareAll(r: Router, ds: seq<Declaration>): (r': Router)
    ensures r'.routes == r.routes
    decreases |ds|
  {
    if |ds| == 0 then r
    else DeclareAll(Route(r, ds[0].pattern, ds[0].methods, ds[0].view).0, ds[1..])
  }

  function PendingOf(d: Declaration): PendingRoute {
    PendingRoute(d.pattern, Wrap(d.view, d.methods), d.view.name)
  }

  // ---------------------------------------------------------------------------
  // Properties
  // ---------------------------------------------------------------------------

  /** However often `Router()` is called, it yields the same instance. */
  lemma {:induction false} SingletonAcrossCalls(p: Process, n: nat)
    ensures New(Repeat(p, n)).1 == New(p).1
    decreases n
  {
    if n > 0 {
      SingletonAcrossCalls(p, n - 1);
    }
  }

  /** The process after `n` constructions. */
  function Repeat(p: Process, n: nat): Process
    decreases n
  {
    if n == 0 then p else New(Repeat(p, n - 1)).0
  }

  /** The URL-pattern list is empty until the first activation. */
  lemma NothingListedBeforeActivation(ds: seq<Declaration>)
    ensures GetUrlPatterns(DeclareAll(Initial.router, ds)) == []
  {
  }

  /** Declarations queue up in source order. */
  lemma {:induction false} DeclareAllQueuesInOrder(r: Router, ds: seq<Declaration>)
    ensures DeclareAll(r, ds).pending == r.pending + Pendings(ds)
    decreases |ds|
  {
    if |ds| > 0 {
      var r1 := Route(r, ds[0].pattern, ds[0].methods, ds[0].view).0;
      assert r1.pending == r.pending + [PendingOf(ds[0])];
      DeclareAllQueuesInOrder(r1, ds[1..]);
      assert Pendings(ds) == [PendingOf(ds[0])] + Pendings(ds[1..]);
    }
  }

  function Pendings(ds: seq<Declaration>): (ps: seq<PendingRoute>)
    ensures |ps| == |ds|
    ensures forall i :: 0 <= i < |ds| ==> ps[i] == PendingOf(ds[i])
  {
    seq(|ds|, i requires 0 <= i < |ds| => PendingOf(ds[i]))
  }

  /** A second activation right after the first changes nothing: no route is listed twice. */
  lemma SecondActivationIsNoOp(r: Router)
    ensures RegisterRoutes(RegisterRoutes(r)) == RegisterRoutes(r)
  {
    var r1 := RegisterRoutes(r);
    assert r1.routes + Materialize([]) == r1.routes;
  }

  /**
   * The URL patterns obtained by declaring views and activating once are
   * the same multiset whatever order the views were declared in.
   */
  lemma DeclarationOrderIrrelevant(ds1: seq<Declaration>, ds2: seq<Declaration>)
    requires multiset(ds1) == multiset(ds2)
    ensures multiset(GetUrlPatterns(RegisterRoutes(DeclareAll(Initial.router, ds1))))
         == multiset(GetUrlPatterns(RegisterRoutes(DeclareAll(Initial.router, ds2))))
  {
    ActivatedPatterns(ds1);
    ActivatedPatterns(ds2);
    PatternsOfPermutation(ds1, ds2);
  }

  /** Declaring from the initial state and activating lists exactly the declared patterns, in order. */
  lemma ActivatedPatterns(ds: seq<Declaration>)
    ensures GetUrlPatterns(RegisterRoutes(DeclareAll(Initial.router, ds))) == Patterns(ds)
  {
    var r := DeclareAll(Initial.router, ds);
    DeclareAllQueuesInOrder(Initial.router, ds);
    assert RegisterRoutes(r).routes == [] + Materialize(Pendings(ds));
    MaterializedPatterns(ds);
  }

  /** The URL patterns of a list of declarations, in order. */
  function Patterns(ds: seq<Declaration>): seq<UrlPattern>
    decreases |ds|
  {
    if |ds| == 0 then [] else [ToUrlPattern(PendingOf(ds[0]))] + Patterns(ds[1..])
  }

  lemma {:induction false} MaterializedPatterns(ds: seq<Declaration>)
    ensures Materialize(Pendings(ds)) == Patterns(ds)
    decreases |ds|
  {
    if |ds| > 0 {
      MaterializedPatterns(ds[1..]);
      var m := Materialize(Pendings(ds));
      var m1 := Materialize(Pendings(ds[1..]));
      assert forall i :: 0 <= i < |m1| ==> m[i + 1] == m1[i];
      assert m == [m[0]] + m1;
    }
  }

  lemma {:induction false} PatternsAppend(a: seq<Declaration>, b: seq<Declaration>)
    ensures Patterns(a + b) == Patterns(a) + Patterns(b)
    decreases |a|
  {
    if |a| == 0 {
      assert a + b == b;
    } else {
      assert (a + b)[1..] == a[1..] + b;
      PatternsAppend(a[1..], b);
    }
  }

  lemma RemoveAt<T>(s: seq<T>, i: nat)
    requires i < |s|
    ensures multiset(s[..i] + s[i + 1..]) == multiset(s) - multiset{s[i]}
    ensures s == s[..i] + ([s[i]] + s[i + 1..])
  {
    assert s == s[..i] + [s[i]] + s[i + 1..];
  }

  /** Taking one declaration out of the middle takes its pattern out of the multiset. */
  lemma PatternsSplice(ds: seq<Declaration>, i: nat)
    requires i < |ds|
    ensures multiset(Patterns(ds)) == multiset(Patterns(ds[..i] + ds[i + 1..])) + multiset{ToUrlPattern(PendingOf(ds[i]))}
  {
    RemoveAt(ds, i);
    PatternsAppend(ds[..i], [ds[i]] + ds[i + 1..]);
    PatternsAppend([ds[i]], ds[i + 1..]);
    PatternsAppend(ds[..i], ds[i + 1..]);
  }

  lemma {:induction false} PatternsOfPermutation(ds1: seq<Declaration>, ds2: seq<Declaration>)
    requires multiset(ds1) == multiset(ds2)
    ensures multiset(Patterns(ds1)) == multiset(Patterns(ds2))
    decreases |ds1|
  {
    if |ds1| > 0 {
      var d := ds1[0];
      assert d in multiset(ds2);
      var i :| 0 <= i < |ds2| && ds2[i] == d;
      var rest2 := ds2[..i] + ds2[i + 1..];
      RemoveAt(ds1, 0);
      RemoveAt(ds2, i);
      assert ds1[..0] + ds1[1..] == ds1[1..];
      PatternsOfPermutation(ds1[1..], rest2);
      PatternsSplice(ds1, 0);
      PatternsSplice(ds2, i);
    }
  }
}

=== FILE: secrets_manager.dfy ===
/**
 * The CDK-side secret manager with its cloud and file-system effects removed:
 * secret files arrive as lists of lines, created cloud secrets are recorded
 * by name, and environment variables are (name, secret, JSON key) triples.
 */
module SecretsManager {
  import opened Wrappers
  import opened PyStr
  import opened Dict
  import opened KeyValueFile
  import PosixPath

  /** `mask_secret_value`: at most the first and last character are shown. */
  function MaskSecretValue(value: Option<string>): (masked: string)
    ensures value.None? || |value.value| <= 2 ==> masked == "***"
    ensures value.Some? && |value.value| > 2 ==>
      && |masked| == 6
      && masked[0] == value.value[0]
      && masked[5] == value.value[|value.value| - 1]
      && masked[1..5] == "****"
  {
    match value
    case None => "***"
    case Some(v) => if |v| <= 2 then "***" else [v[0]] + "****" + [v[|v| - 1]]
  }

  /** The cloud name of a file's secret: the app name, '_', and the file name without its extension. */
  function SecretName(appName: string, filename: string): string {
    appName + "_" + PosixPath.Stem(filename)
  }

  /** A file's key/value pairs, by file name, in the order the files were added. */
  type Files = Dict<Dict<string>>

  /** Every file's dictionary is itself well formed. */
  ghost predicate ValidFiles(fs: Files) {
    Valid(fs) && forall f :: f in fs.items ==> Valid(fs.items[f])
  }

  datatype Manager = Manager(
    appName: string,
    secrets: Files,          // `self.secrets`: file name -> pairs
    awsSecrets: Files)       // `self.aws_secrets`: secret name -> the pairs it was created with

  ghost predicate ValidManager(m: Manager) {
    ValidFiles(m.secrets) && ValidFiles(m.awsSecrets)
  }

  /** `SecretManager(scope, app_name)`: both tables start empty. */
  function NewManager(appName: string): (m: Manager)
    ensures ValidManager(m)
    ensures m.appName == appName && IsEmpty(m.secrets) && IsEmpty(m.awsSecrets)
    ensures forall f :: Get(m.secrets, f).None? && Get(m.awsSecrets, f).None?
  {
    Manager(appName, Empty(), Empty())
  }

  /** Reference: a key's value is the file's last one for it, else the default, if any. */
  function LoadedValue(file: Option<seq<string>>, defaults: Option<Dict<string>>, k: string): Option<string> {
    var fromFile := if file.Some? then LastValue(file.value, k) else None;
    if fromFile.Some? then fromFile
    else if defaults.Some? then Get(defaults.value, k)
    else None
  }

  /**
   * `add_secret_file(filename, default_values)`; `file` is the file's lines,
   * or `None` when there is no such file. Returns the new state and the
   * file's dictionary.
   */
  function AddSecretFile(m: Manager, filename: string, defaults: Option<Dict<string>>,
                         file: Option<seq<string>>): (r: (Manager, Dict<string>))
    requires ValidManager(m)
    requires defaults.Some? ==> Valid(defaults.value)
    ensures ValidManager(r.0) && Valid(r.1)
    ensures Get(r.0.secrets, filename) == Some(r.1)
    ensures forall f :: f != filename ==> Get(r.0.secrets, f) == Get(m.secrets, f)
    ensures r.0.awsSecrets == m.awsSecrets && r.0.appName == m.appName
    ensures forall k :: Get(r.1, k) == LoadedValue(file, defaults, k)
  {
    var start := if defaults.Some? then defaults.value else Empty();
    var values := if file.Some? then ParseLines(start, file.value) else start;
    forall k
      ensures Get(values, k) == LoadedValue(file, defaults, k)
    {
      if file.Some? {
        ParseLookup(start, file.value, k);
      }
    }
    (Manager(m.appName, Set(m.secrets, filename, values), m.awsSecrets), values)
  }

  /** File `f` is loaded and has at least one pair: `if not values: continue` does not skip it. */
  predicate HasPairs(secrets: Files, f: string) {
    f in secrets.items && !IsEmpty(secrets.items[f])
  }

  /** The secret creation loop over `files`, in order, skipping files with no pairs. */
  function CreateFrom(appName: string, secrets: Files, files: seq<string>, aws: Files): (r: Files)
    requires ValidFiles(secrets) && ValidFiles(aws)
    requires forall f :: f in files ==> f in secrets.items
    ensures ValidFiles(r)
    ensures aws.keys <= r.keys
    ensures forall f :: f in files && HasPairs(secrets, f) ==> SecretName(appName, f) in r.items
    ensures forall n :: n in r.items ==>
      n in aws.items || exists f :: f in files && HasPairs(secrets, f) && n == SecretName(appName, f)
    decreases |files|
  {
    if |files| == 0 then aws
    else
      var values := secrets.items[files[0]];
      var aws' := if IsEmpty(values) then aws else Set(aws, SecretName(appName, files[0]), values);
      assert forall f :: f in files <==> f == files[0] || f in files[1..];
      CreateFrom(appName, secrets, files[1..], aws')
  }

  /** `create_secrets_in_secrets_manager`. */
  function CreateSecrets(m: Manager): (r: Manager)
    requires ValidManager(m)
    ensures ValidManager(r)
    ensures r.secrets == m.secrets
    ensures forall f :: HasPairs(m.secrets, f) ==> SecretName(m.appName, f) in r.awsSecrets.items
    ensures forall n :: n in r.awsSecrets.items ==>
      n in m.awsSecrets.items || exists f :: HasPairs(m.secrets, f) && n == SecretName(m.appName, f)
  {
    Manager(m.appName, m.secrets, CreateFrom(m.appName, m.secrets, m.secrets.keys, m.awsSecrets))
  }

  /** An App Runner environment variable fed from key `jsonKey` of secret `secretName`. */
  datatype EnvVar = EnvVar(name: string, secretName: string, jsonKey: string)

  /** One variable per key, named by the upper-cased key. */
  function KeyVars(secretName: string, keys: seq<string>): (vs: seq<EnvVar>)
    ensures |vs| == |keys|
    ensures forall i :: 0 <= i < |keys| ==> vs[i] == EnvVar(Upper(keys[i]), secretName, keys[i])
  {
    seq(|keys|, i requires 0 <= i < |keys| => EnvVar(Upper(keys[i]), secretName, keys[i]))
  }

  /** The variable loop over `files`, skipping files whose secret was not created. */
  function EnvFrom(appName: string, secrets: Files, files: seq<string>, aws: Files): (vs: seq<EnvVar>)
    requires forall f :: f in files ==> f in secrets.items
    ensures forall v :: v in vs ==>
      && v.name == Upper(v.jsonKey)
      && v.secretName in aws.items
      && exists f :: f in files && v.secretName == SecretName(appName, f) && v.jsonKey in secrets.items[f].keys
    decreases |files|
  {
    if |files| == 0 then []
    else
      var name := SecretName(appName, files[0]);
      var here := if name in aws.items then KeyVars(name, secrets.items[files[0]].keys) else [];
      assert forall f :: f in files[1..] ==> f in files;
      here + EnvFrom(appName, secrets, files[1..], aws)
  }

  /** `get_environment_variables`. */
  function EnvironmentVariables(m: Manager): (vs: seq<EnvVar>)
    requires ValidManager(m)
    ensures forall v :: v in vs ==>
      && v.name == Upper(v.jsonKey)
      && v.secretName in m.awsSecrets.items
      && exists f :: f in m.secrets.items && v.secretName == SecretName(m.appName, f)
                     && v.jsonKey in m.secrets.items[f].keys
  {
    EnvFrom(m.appName, m.secrets, m.secrets.keys, m.awsSecrets)
  }

  /** Reference: one variable for every key of every file, file by file, key by key. */
  function AllKeyVars(appName: string, secrets: Files, files: seq<string>): seq<EnvVar>
    requires forall f :: f in files ==> f in secrets.items
    decreases |files|
  {
    if |files| == 0 then []
    else KeyVars(SecretName(appName, files[0]), secrets.items[files[0]].keys)
         + AllKeyVars(appName, secrets, files[1..])
  }

  /** A directory entry as `glob`/`listdir` and `isfile` report it, with the file's lines. */
  datatype DirEntry = DirEntry(name: string, isFile: bool, lines: seq<string>)

  /** The entries loaded as secret files: regular files whose name does not start with '.'. */
  function VisibleFiles(entries: seq<DirEntry>): (vs: seq<DirEntry>)
    ensures forall e :: e in vs <==> e in entries && e.isFile && !StartsWith(e.name, ".")
    decreases |entries|
  {
    if |entries| == 0 then []
    else
      var rest := VisibleFiles(entries[1..]);
      assert forall e :: e in entries <==> e == entries[0] || e in entries[1..];
      if entries[0].isFile && !StartsWith(entries[0].name, ".") then [entries[0]] + rest else rest
  }

  /** The loading loop: each visible file not yet present is added with no defaults. */
  function LoadNew(m: Manager, files: seq<DirEntry>): (r: Manager)
    requires ValidManager(m)
    ensures ValidManager(r)
    ensures r.awsSecrets == m.awsSecrets && r.appName == m.appName
    ensures m.secrets.keys <= r.secrets.keys
    ensures forall f :: f in m.secrets.items ==> Get(r.secrets, f) == Get(m.secrets, f)
    ensures forall e :: e in files ==> e.name in r.secrets.items
    decreases |files|
  {
    if |files| == 0 then m
    else
      var e := files[0];
      var m' := if e.name in m.secrets.items then m else AddSecretFile(m, e.name, None, Some(e.lines)).0;
      var r := LoadNew(m', files[1..]);
      assert forall x :: x in files ==> x == e || x in files[1..];
      r
  }

  /** Every file that loading added was read, with no defaults, from a listed entry of that name. */
  lemma {:induction false} LoadNewReadsEntries(m: Manager, files: seq<DirEntry>)
    requires ValidManager(m)
    ensures forall f :: f in LoadNew(m, files).secrets.items && f !in m.secrets.items ==>
      exists e :: e in files && e.name == f && LoadNew(m, files).secrets.items[f] == ParseLines(Empty(), e.lines)
    decreases |files|
  {
    if |files| > 0 {
      var e := files[0];
      var m' := if e.name in m.secrets.items then m else AddSecretFile(m, e.name, None, Some(e.lines)).0;
      var r := LoadNew(m', files[1..]);
      assert r == LoadNew(m, files);
      LoadNewReadsEntries(m', files[1..]);
      forall f | f in r.secrets.items && f !in m.secrets.items
        ensures exists x :: x in files && x.name == f && r.secrets.items[f] == ParseLines(Empty(), x.lines)
      {
        if f == e.name {
          assert Get(m'.secrets, f) == Some(ParseLines(Empty(), e.lines));
          assert Get(r.secrets, f) == Get(m'.secrets, f);
        } else {
          assert Get(m'.secrets, f) == Get(m.secrets, f);
          var x :| x in files[1..] && x.name == f && r.secrets.items[f] == ParseLines(Empty(), x.lines);
          assert x in files;
        }
      }
    }
  }

  /**
   * `discover_and_load_all_secret_files`; `dir` is the directory listing, or
   * `None` when the directory does not exist (it is then created, and an
   * empty dictionary is returned).
   */
  function DiscoverAndLoad(m: Manager, dir: Option<seq<DirEntry>>): (r: (Manager, Files))
    requires ValidManager(m)
    ensures ValidManager(r.0)
    ensures dir.None? ==> r == (m, Empty())
    ensures dir.Some? ==> r.1 == r.0.secrets
    ensures forall f :: f in m.secrets.items ==> Get(r.0.secrets, f) == Get(m.secrets, f)
    ensures forall f :: f in r.0.secrets.items && f !in m.secrets.items ==>
      && dir.Some? && !StartsWith(f, ".")
      && exists e :: e in dir.value && e.isFile && e.name == f && r.0.secrets.items[f] == ParseLines(Empty(), e.lines)
    ensures dir.Some? ==> forall e :: e in dir.value && e.isFile && !StartsWith(e.name, ".") ==>
      e.name in r.0.secrets.items
  {
    match dir
    case None => (m, Empty())
    case Some(entries) =>
      var m' := LoadNew(m, VisibleFiles(entries));
      LoadNewReadsEntries(m, VisibleFiles(entries));
      (m', m'.secrets)
  }

  /** `p` is what a visible file of `entries` pushes. */
  ghost predicate IsPushOf(appName: string, entries: seq<DirEntry>, p: (string, Dict<string>)) {
    exists e :: e in entries && e.isFile && !StartsWith(e.name, ".")
                && p == (SecretName(appName, e.name), ParseLines(Empty(), e.lines))
  }

  /**
   * The files `push_secrets_to_aws` would push, as (secret name, pairs):
   * visible files with at least one pair, in listing order. The cloud calls
   * themselves are not modelled.
   */
  function PushPlan(appName: string, entries: seq<DirEntry>): (plan: seq<(string, Dict<string>)>)
    ensures forall p :: p in plan ==> !IsEmpty(p.1) && IsPushOf(appName, entries, p)
    ensures forall e :: (e in entries && e.isFile && !StartsWith(e.name, ".")
      && !IsEmpty(ParseLines(Empty(), e.lines))) ==>
      (SecretName(appName, e.name), ParseLines(Empty(), e.lines)) in plan
    decreases |entries|
  {
    if |entries| == 0 then []
    else
      var e := entries[0];
      var values := ParseLines(Empty(), e.lines);
      var rest := PushPlan(appName, entries[1..]);
      assert forall x :: x in entries <==> x == e || x in entries[1..];
      if e.isFile && !StartsWith(e.name, ".") && !IsEmpty(values)
      then [(SecretName(appName, e.name), values)] + rest
      else rest
  }

  // ---------------------------------------------------------------------------
  // Properties
  // ---------------------------------------------------------------------------

  /** One entry is kept exactly when it is a visible regular file. */
  lemma VisibleFilesSingle(e: DirEntry)
    ensures VisibleFiles([e]) == if e.isFile && !StartsWith(e.name, ".") then [e] else []
  {
    assert [e][1..] == [];
  }

  /**
   * Filtering a listing in two parts is filtering it whole: with
   * `VisibleFilesSingle` this fixes the result as the visible entries in
   * listing order, each as often as it is listed.
   */
  lemma {:induction false} VisibleFilesAppend(a: seq<DirEntry>, b: seq<DirEntry>)
    ensures VisibleFiles(a + b) == VisibleFiles(a) + VisibleFiles(b)
    decreases |a|
  {
    if |a| > 0 {
      assert (a + b)[0] == a[0];
      assert (a + b)[1..] == a[1..] + b;
      VisibleFilesAppend(a[1..], b);
    } else {
      assert a + b == b;
    }
  }

  /** One entry is pushed exactly when it is a visible regular file with at least one pair. */
  lemma PushPlanSingle(appName: string, e: DirEntry)
    ensures PushPlan(appName, [e]) ==
      if e.isFile && !StartsWith(e.name, ".") && !IsEmpty(ParseLines(Empty(), e.lines))
      then [(SecretName(appName, e.name), ParseLines(Empty(), e.lines))]
      else []
  {
    assert [e][1..] == [];
  }

  /**
   * Planning a listing in two parts is planning it whole: with
   * `PushPlanSingle` this fixes the plan as one push per qualifying entry,
   * in listing order.
   */
  lemma {:induction false} PushPlanAppend(appName: string, a: seq<DirEntry>, b: seq<DirEntry>)
    ensures PushPlan(appName, a + b) == PushPlan(appName, a) + PushPlan(appName, b)
    decreases |a|
  {
    if |a| > 0 {
      assert (a + b)[0] == a[0];
      assert (a + b)[1..] == a[1..] + b;
      PushPlanAppend(appName, a[1..], b);
    } else {
      assert a + b == b;
    }
  }

  /** Masking depends only on the length and the two end characters: nothing else leaks. */
  lemma MaskHidesMiddle(a: string, b: string)
    requires |a| == |b|
    requires |a| > 2 ==> a[0] == b[0] && a[|a| - 1] == b[|b| - 1]
    ensures MaskSecretValue(Some(a)) == MaskSecretValue(Some(b))
  {
  }

  /** The secret name is the app name, '_' and the file name up to its last extension. */
  lemma SecretNameShape(appName: string, name: string, ext: string)
    requires |name| > 0 && '.' !in name && '/' !in name
    requires '.' !in ext && '/' !in ext
    ensures SecretName(appName, name + "." + ext) == appName + "_" + name
    ensures SecretName(appName, name) == appName + "_" + name
  {
    assert name[0] != '.';
    PosixPath.LastExtensionSplitOff(name, ext);
    PosixPath.NoDotNoExtension(name);
  }

  /** Files without pairs create no secret: with only such files nothing is created. */
  lemma {:induction false} EmptyFilesCreateNothing(appName: string, secrets: Files, files: seq<string>, aws: Files)
    requires ValidFiles(secrets) && ValidFiles(aws)
    requires forall f :: f in files ==> f in secrets.items && !HasPairs(secrets, f)
    ensures CreateFrom(appName, secrets, files, aws) == aws
    decreases |files|
  {
    if |files| > 0 {
      EmptyFilesCreateNothing(appName, secrets, files[1..], aws);
    }
  }

  /**
   * After creating the secrets of a fresh manager, the environment carries
   * one variable per key of every file, in file order then key order.
   */
  lemma EnvAfterCreate(m: Manager)
    requires ValidManager(m) && m.awsSecrets == Empty()
    ensures EnvironmentVariables(CreateSecrets(m)) == AllKeyVars(m.appName, m.secrets, m.secrets.keys)
  {
    var created := CreateSecrets(m);
    EnvFromCreated(m.appName, m.secrets, m.secrets.keys, created.awsSecrets);
  }

  lemma {:induction false} EnvFromCreated(appName: string, secrets: Files, files: seq<string>, aws: Files)
    requires ValidFiles(secrets)
    requires forall f :: f in files ==> f in secrets.items
    requires forall f :: f in files && HasPairs(secrets, f) ==> SecretName(appName, f) in aws.items
    ensures EnvFrom(appName, secrets, files, aws) == AllKeyVars(appName, secrets, files)
    decreases |files|
  {
    if |files| > 0 {
      EnvFromCreated(appName, secrets, files[1..], aws);
      var f := files[0];
      if SecretName(appName, f) !in aws.items {
        assert IsEmpty(secrets.items[f]);
        assert KeyVars(SecretName(appName, f), secrets.items[f].keys) == [];
      }
    }
  }
}

=== FILE: seqs.dfy ===
/** Element-wise mapping over sequences. */
module Seqs {

  /** `[f(x) for x in s]`. */
  function Map<A, B>(f: A -> B, s: seq<A>): (r: seq<B>)
    ensures |r| == |s|
    ensures forall i :: 0 <= i < |s| ==> r[i] == f(s[i])
  {
    seq(|s|, i requires 0 <= i < |s| => f(s[i]))
  }

  /** Mapping one more element appends its image. */
  lemma MapSnoc<A, B>(f: A -> B, s: seq<A>, i: nat)
    requires i < |s|
    ensures Map(f, s[..i + 1]) == Map(f, s[..i]) + [f(s[i])]
  {
    assert Map(f, s[..i + 1]) == Map(f, s[..i]) + [f(s[i])] by {
      assert forall j :: 0 <= j < i ==> s[..i + 1][j] == s[..i][j];
    }
  }
}

=== FILE: wrappers.dfy ===
/** Python's `None`-or-value, as used by `dict.get` and by optional settings. */
module Wrappers {

  datatype Option<+T> = None | Some(value: T) {

    /** Returns the wrapped value, or `default` when there is none (`x or default`). */
    function GetOr(default: T): T {
      match this
      case Some(v) => v
      case None => default
    }
  }
}
